=== FILE: README.md ===
# Conversation handlers and speech clients: a Dafny model

This project models the conversation HTTP handlers of the chat application and
the clients of its two speech services:

- **Completion.** `completion` filters the chat history before it goes to the
  model and normalises the conversation's reference list. It frames the
  streamed answers as server-sent events: one `data:` frame per answer, an
  error frame on failure, and a final `data: true` frame. It also decides
  when the conversation is persisted.
- **Creating and renaming.** `set_conversation` applies the default name, the
  255-character name limit and the initial prologue message.
- **Message edits.** `delete_msg` removes a question/answer pair and one
  reference entry. `thumbup` rates the first assistant message with a given
  id.
- **Text-to-speech life cycle.**
  - `tts/generate` submits a synthesis task.
  - `tts/callback` resolves the task id to a conversation, at conversation
    level first and then message level. It propagates the status, and on
    completion it downloads the audio, stores it under
    `tts/<task id>_<hex>.mp3` in the conversation's bucket and records the
    presigned URL.
  - `tts` plays stored audio when there is some. Otherwise it splits the text
    into sentences for live synthesis.
  - `tts/down` serves the stored file.
- **Transcription.** `sequence2txt` checks the upload's extension against the
  allow-list and manages the temporary audio file.
- **Related questions.** `related_questions` parses the numbered lines out
  of the model's answer.
- **Speech clients.** The synthesis and recognition clients normalise their
  base URL and accept a submission only on status 200 with `code == 0`. The
  synthesis client polls for the result URL. The recognition client reads
  the transcript, which in meeting mode is joined from speaker lines.

Handler and client logic are pure functions. The stored conversations, the
blob store, the HTTP replies and the polls made before the deadline are all
inputs. Remote failures are values: an exception is a `Raised` case. Records
read with `.get` treat a missing key and a JSON null alike, as `None`; the
message fields are named after their keys (`ttsTaskIdSnake` for `tts_task_id`,
`ttsTaskIdCamel` for `ttsTaskId`). Where a handler tells the two apart, the value is a `Slot`: `Absent`, `Null`
or `Present`. That covers `set_conversation`'s fields, the recognition reply,
and a message's `id`, which is read as `msg.get("id", "")`: a missing id is
`""`, while a null id stays `None` and matches no requested id.

Modules:

| file | module | models |
|---|---|---|
| wrappers.dfy | `Wrappers` | `Option`, `Result`, Python truthiness of optional strings |
| text.dfy | `Text` | `str.split`, `join`, `rstrip`, the last `split(sep)[-1]` segment, ASCII `lower` |
| records.dfy | `Records` | messages, references, conversations, the blob store |
| completion.dfy | `Completion` | `completion` |
| conversation_setup.dfy | `ConversationSetup` | `set_conversation` |
| message_edits.dfy | `MessageEdits` | `delete_msg`, `thumbup` |
| tts_storage.dfy | `TtsStorage` | object keys, the key recovered from a stored URL, content type |
| tts_tasks.dfy | `TtsTasks` | `generate_tts`, `tts_callback` |
| playback.dfy | `Playback` | `tts`, `download_tts` |
| transcription.dfy | `Transcription` | `sequence2txt` |
| related_questions.dfy | `RelatedQuestions` | the parser of `related_questions` |
| speech_client.dfy | `SpeechClient` | the synthesis and recognition clients |

Where the code and the written design of the system disagree, the model
follows the code:

- **The back-fill never applies.** The callback's second pass over the
  messages (giving messages the presigned URL "if not updated before") only
  runs when no message carries the task id. A message carrying the id is
  exactly what the pass looks for, so it never changes anything. Messages
  therefore never receive the presigned URL; `TtsTasks.BackfillNeverApplies`
  states this.
- **A failed download keeps the old URL.** When the audio download fails,
  the conversation is saved with status `completed` and with whatever
  conversation-level URL it had before. The URL is not cleared
  (`TtsTasks.DownloadFailureStillCompletes`).
- **`delete_msg` deletes by position.** It removes message `i` and message
  `i + 1`, where `i` is the first message with the id. It asserts that
  message `i + 1` carries the same id. It then removes the reference at
  `max(0, i // 2 - 1)`. In a prologue-led conversation, deleting the pair of
  turn `k ≥ 2` removes the reference entry of turn `k - 1`. Whether that
  slot is intended is not clear from the code, so the model keeps it as
  written.

## Model

| member | source | states |
|---|---|---|
| Completion.NonSystemMembers | api/apps/conversation_app.py:183-185 | the messages after the role filter are exactly the request's messages whose role is not `system` |
| Completion.DropLeadingShape | api/apps/conversation_app.py:186-187 | skipping assistant messages until the first kept one leaves a suffix that starts with a non-assistant message, and everything skipped was an assistant message |
| Completion.FilterSnoc | api/apps/conversation_app.py:182-188 | one more request message changes the filtered history as the loop body does: a system message is skipped, an assistant message is skipped while nothing is kept, anything else is appended |
| Completion.DropLeadingMembers | api/apps/conversation_app.py:186-187 | skipping the leading assistant messages keeps only messages of the input and keeps every non-assistant message |
| Completion.FilterHistory | api/apps/conversation_app.py:182-188 | the loop keeps exactly the non-system messages, in order, minus the assistant messages that come before the first kept message |
| Completion.HistoryFilterMeaning | api/apps/conversation_app.py:182-188 | every kept message is a non-system request message; every user message is kept; the kept history never starts with an assistant message |
| Completion.PrepareHistory | api/apps/conversation_app.py:182-189 | the handler fails (where `msg[-1]` raises) iff the filtered history is empty; otherwise the answer's message id is the id of the last kept message |
| Completion.TruthyReferences | api/apps/conversation_app.py:218 | the kept references are exactly the non-empty ones |
| Completion.NormaliseReferences | api/apps/conversation_app.py:216-219 | the stored references are the non-empty old ones followed by one empty block, and every entry is a block |
| Completion.TruthyReferencesAppend | api/apps/conversation_app.py:218 | the filter works entry by entry: the kept entries of a concatenation are the kept entries of each part, in order |
| Completion.TruthyReferencesSingle | api/apps/conversation_app.py:218 | a single entry is kept exactly when it is a non-empty block |
| Completion.NormaliseReferencesAppend | api/apps/conversation_app.py:216-219 | normalising a concatenation keeps the non-empty entries of the first part, in order, before the normalised second part |
| Completion.TruthyReferencesKeepsBlocks | api/apps/conversation_app.py:218 | a reference list of blocks only is kept unchanged |
| Completion.NormaliseAppendsOne | api/apps/conversation_app.py:216-219 | each completion turn grows an already normalised list by exactly one empty block |
| Completion.ChatModelConfig | api/apps/conversation_app.py:193-203 | the configuration holds a key iff it is one of the five generation settings and the request sets it to a truthy value, with the request's value |
| Completion.AnswerFrames | api/apps/conversation_app.py:233-235 | one `code 0` frame per answer, in order |
| Completion.Stream | api/apps/conversation_app.py:229-241 | the stream is exactly the answer frames, then an error frame (`code 500`, answer `**ERROR**: ` + message) when the answers failed or a non-embedded save raised, then one final `data: true` frame; the conversation is persisted iff no failure occurred, the model is not embedded, and the save did not raise |
| Completion.StreamClosesOnce | api/apps/conversation_app.py:230-241 | every stream has exactly one closing frame, and exactly one error frame when the answers failed or the save of a non-embedded run raised, none otherwise |
| Completion.FailureAfterFirstAnswer | api/apps/conversation_app.py:232-241 | a failure after the first answer yields that answer, the error frame and the closing frame |
| Completion.SingleShot | api/apps/conversation_app.py:250-260 | without answers the reply is none, or the server error when the model call raised. With answers: an embedded model replies with the first answer unsaved; otherwise the first answer is saved and returned, or the save's exception becomes a server error |
| Completion.SingleShotAgreesWithStream | api/apps/conversation_app.py:229-260 | fed the same answer sequence, when it does not fail and holds at least one answer, the non-streaming and streaming paths persist in the same cases; an answered reply is the stream's first frame with no error frame, and a server error appears as the stream's error frame |
| Completion.SingleShotSavesBeforeLaterFailure | api/apps/conversation_app.py:229-260 | where the paths part: when the model call would raise after its first answer, the non-streaming path (which stops after that answer) replies with it and saves, while the stream sends the answer, the error frame and the closing frame and saves nothing |
| ConversationSetup.TruncateName | api/apps/conversation_app.py:55-56 | the name is cut to a prefix of at most 255 characters and is unchanged when it already fits |
| ConversationSetup.TruncateNameIdempotent | api/apps/conversation_app.py:55-56 | cutting the name twice is the same as cutting it once |
| ConversationSetup.NewConversation | api/apps/conversation_app.py:76-83 | a new conversation has the (default or truncated) name, the dialog's prologue as its only assistant message, and no references or speech fields |
| ConversationSetup.SetConversationAsWritten | api/apps/conversation_app.py:48-87 | as written: a null name, a missing `is_new`, or an update without `conversation_id` raise before the `try`. An update is written iff the conversation exists, with the request's id and untruncated name; otherwise "Conversation not found!". A create without `dialog_id` is a server error, an unknown dialog is "Dialog not found", and a found dialog gives the new conversation record (request id, dialog id, truncated or default name, prologue) |
| ConversationSetup.MissingIsNewFails | api/apps/conversation_app.py:50-58 | a request without `is_new` is never processed, whatever else it holds |
| ConversationSetup.UpdateWritesLongName | api/apps/conversation_app.py:52-62 | a 300-character name sent in an update is written in full |
| ConversationSetup.SetConversation | api/apps/conversation_app.py:48-87 | with the limit applied to both paths, an update writes the request's name cut to 255 characters (nothing when no name was sent), and every other outcome is the handler's |
| MessageEdits.FirstIdMatch | api/apps/conversation_app.py:450-452 | the first message whose id (or "" when it has none) equals the requested id, or none when no message matches; a message with a null id is never the match |
| MessageEdits.DeleteMsg | api/apps/conversation_app.py:450-457 | no match leaves the conversation unchanged. At the first match `i`, deletion succeeds iff message `i + 1` exists with the same id and the reference slot exists. Success removes both messages and that one reference entry |
| MessageEdits.DeleteMsgRemovesPair | api/apps/conversation_app.py:453-456 | a deletion drops exactly two messages sharing the id and one reference, keeps the others in order, and leaves the other fields untouched |
| MessageEdits.Rate | api/apps/conversation_app.py:476-483 | a thumbs-up sets `thumbup` and removes any feedback; a thumbs-down clears `thumbup` and records non-empty feedback, otherwise keeping the old one |
| MessageEdits.RateFirst | api/apps/conversation_app.py:474-484 | only the first assistant message with the id is rated; the others are unchanged |
| MessageEdits.Thumbup | api/apps/conversation_app.py:474-484 | only the messages change; with no assistant message bearing the id the conversation is unchanged |
| MessageEdits.RateFirstIdempotent | api/apps/conversation_app.py:474-484 | rating twice with the same vote and feedback equals rating once |
| MessageEdits.ThumbupIdempotent | api/apps/conversation_app.py:474-484 | repeating a rating request leaves the conversation as after the first |
| TtsStorage.StoredKey | api/apps/conversation_app.py:745-746 | every generated object key lies under `tts/` |
| TtsStorage.UrlPath | api/apps/conversation_app.py:819-820 | the path `urlparse` yields never contains `?` or `#` |
| TtsStorage.UrlPathOfPlain | api/apps/conversation_app.py:819-820 | a relative path without scheme, network location, query or fragment is its own path |
| TtsStorage.UrlPathOf | api/apps/conversation_app.py:819-820 | the path of `scheme://host/path?query` is `/path` |
| TtsStorage.FilenameFromUrl | api/apps/conversation_app.py:819-822 | the file name taken from a URL contains no `/`, `?`, `#` or `;` |
| Text.LastSegmentIsLastPiece | api/apps/conversation_app.py:822 | the text after the last `/` is the last piece `split("/")` produces |
| TtsStorage.FilenameOfPath | api/apps/conversation_app.py:819-822 | a URL whose path ends in `/<name>`, with no `/` or `;` in the name, yields exactly that name |
| TtsStorage.KeyFromUrl | api/apps/conversation_app.py:819-823 | the key looked up is `tts/` followed by a single path segment |
| TtsStorage.StoredKeyRoundTrip | api/apps/conversation_app.py:819-823 | the presigned URL of an object stored under `tts/<task id>_<hex>.mp3` leads back to that same key |
| TtsStorage.Extension | api/apps/conversation_app.py:838 | the extension is the non-empty, dot-free text after the last dot, and is absent when there is no dot or the name ends in one |
| TtsStorage.ContentType | api/apps/conversation_app.py:838-840 | the content type is `audio/<extension>` exactly when the name has an extension |
| TtsStorage.StoredFileContentType | api/apps/conversation_app.py:838-840 | every file the callback stores is served as `audio/mp3` |
| TtsTasks.SubmitForm | api/apps/conversation_app.py:602-610 | the form carries exactly the seven fields, with the content as text and the fixed callback URL |
| TtsTasks.GenerateTts | api/apps/conversation_app.py:614-641 | the submission succeeds iff the reply is 200, decodes, has `code 0` and a non-empty task id; success records that id and status `pending` and nothing else; a non-200 reply is a service error |
| TtsTasks.FirstOwner | api/apps/conversation_app.py:665 | the first conversation whose own task id matches, or none exactly when none does |
| TtsTasks.FirstMessageOwner | api/apps/conversation_app.py:678-691 | the first conversation with a message carrying the task id under either field name, or none exactly when none has one |
| TtsTasks.ResolveTask | api/apps/conversation_app.py:659-702 | a missing task id is "missing task id". A conversation-level owner wins. Otherwise the first message-level owner is taken, and when there is none the error is "conversation not found" |
| TtsTasks.MarkMessages | api/apps/conversation_app.py:709-718 | exactly the messages carrying the task id take the status (and, when completed with a URL, the URL); the others are unchanged |
| TtsTasks.PropagateStatus | api/apps/conversation_app.py:704-719 | the conversation takes the status and only the task's messages change; the "messages updated" flag holds iff some message carries the task, before and after the pass |
| TtsTasks.BackfillMessages | api/apps/conversation_app.py:764-768 | the second pass would give the presigned URL to exactly the messages carrying the task |
| TtsTasks.BackfillNeverApplies | api/apps/conversation_app.py:708-768 | when the first pass updated no message, the second pass changes nothing |
| TtsTasks.CompleteAudio | api/apps/conversation_app.py:721-773 | a record is saved iff the save succeeds. It is the status-marked record with the presigned URL when the download returned 200 and presigning succeeded, and the status-marked record unchanged otherwise. The object stored is the downloaded audio in the conversation's bucket under the generated key |
| TtsTasks.Callback | api/apps/conversation_app.py:651-787 | a missing task id or an unresolved task saves nothing; a resolved task is saved iff the save succeeds; a successful reply saves the callback's status; audio is stored only for a completed task |
| TtsTasks.CallbackSavedRecord | api/apps/conversation_app.py:702-779 | the saved record is the resolved conversation with the propagated status. Its URL changes only to the presigned URL, and only after a completed task's download, storage and presigning all succeed |
| TtsTasks.DownloadFailureStillCompletes | api/apps/conversation_app.py:729-738 | a refused download still saves status `completed`, keeps the previous URL and stores nothing |
| TtsTasks.MessageLevelTaskIsFound | api/apps/conversation_app.py:666-697 | a task id carried only by a message resolves to that message's conversation, and that message takes the status |
| TtsTasks.SubmitThenComplete | api/apps/conversation_app.py:637-779 | submitting and then completing a task stores the audio under the generated key and saves status `completed` with the presigned URL |
| Playback.SplitSentences | api/apps/conversation_app.py:426 | splitting always yields at least one piece, and the empty text yields one empty piece |
| Playback.SplitSentencesPieces | api/apps/conversation_app.py:426 | no piece contains a delimiter, and only the first and last pieces can be empty |
| Playback.SplitSentencesConcat | api/apps/conversation_app.py:426 | the pieces concatenated are the text with every delimiter removed |
| Playback.SplitSentencesOfPlainText | api/apps/conversation_app.py:426 | text without delimiters is synthesised as one piece |
| Playback.SplitSentencesOfRun | api/apps/conversation_app.py:426 | a delimiter-free piece followed by a run of one or more delimiters and text not starting with a delimiter splits into that piece and the split of the rest: the whole run is one separator |
| Playback.DoubleDelimiterSplits | api/apps/conversation_app.py:426 | two sentences separated by `。` and a line break split into exactly those two sentences, with no empty piece between them |
| Playback.SplitSentencesJoin | api/apps/conversation_app.py:426 | delimiter-free pieces, non-empty except possibly the first and last, joined by one delimiter split back into exactly those pieces |
| Playback.StoredAudio | api/apps/conversation_app.py:343-362 | stored audio is served iff the blob store holds a non-empty object under the key recovered from the URL |
| Playback.MessageAudio | api/apps/conversation_app.py:387-413 | audio is served from a message exactly when some message is finished with a URL whose stored object can be fetched, and what is served is the object of the first such message |
| Playback.Tts | api/apps/conversation_app.py:323-437 | conversation-level stored audio is served first. Without it: no tenant is an error; a tenant with a synthesis model gets the text split into sentences; a tenant without one, given a conversation id, gets the stored audio of the first finished message. Anything served is a stored object |
| Playback.NothingStoredNoModel | api/apps/conversation_app.py:378-420 | without stored audio and without a default synthesis model the reply is "No default TTS model is set" |
| Playback.DownloadTts | api/apps/conversation_app.py:794-842 | guards in order, each with its own error: missing id, unknown conversation, no URL, not completed, nothing stored. The download succeeds iff the conversation has a URL, is completed and its object is stored, and it serves that object under the URL's file name |
| Playback.DownloadOfFinished | api/apps/conversation_app.py:806-842 | a completed conversation whose object is stored downloads as that object with its name and content type |
| Playback.CompletedAudioIsDownloadable | api/apps/conversation_app.py:745-842 | after submit and a completed callback, the download serves the stored audio as `audio/mp3` under the generated name |
| Transcription.AllowedListMembers | api/apps/conversation_app.py:273-284 | the list in the rejection message holds exactly the allowed extensions |
| Transcription.AllowedListIsSorted | api/apps/conversation_app.py:273-284 | the list in the rejection message is in strictly increasing order |
| Transcription.SplitExt | api/apps/conversation_app.py:280 | the extension is empty or a dot-led suffix of the name with no further dot and no `/` |
| Transcription.SuffixOfName | api/apps/conversation_app.py:279-280 | a name ending in a lower-case dotted extension after a proper stem has that extension as suffix |
| Transcription.AllowedNameAccepted | api/apps/conversation_app.py:279-281 | any file `<stem><allowed extension>` passes the check |
| Transcription.TranscribeAsWritten | api/apps/conversation_app.py:265-319 | as written: the request is rejected iff a file is present with a disallowed suffix, and a temporary file is created iff the suffix is allowed |
| Transcription.TempFileLeaksWithoutTenant | api/apps/conversation_app.py:286-296 | as written, an allowed upload from a user without a tenant leaves the temporary file behind |
| Transcription.Transcribe | api/apps/conversation_app.py:265-319 | corrected: same replies as written, and every temporary file created is removed |
| RelatedQuestions.NumberedLines | api/apps/conversation_app.py:574 | every question comes from a line numbered with one digit, minus its three-character number |
| RelatedQuestions.NumberedLinesAppend | api/apps/conversation_app.py:574 | the filter works line by line: the questions of a concatenation are the questions of each part, in order |
| RelatedQuestions.NumberedLinesSingle | api/apps/conversation_app.py:574 | a single line yields its text after the number when it is numbered with one digit, and nothing otherwise |
| RelatedQuestions.ParseQuestions | api/apps/conversation_app.py:574 | every parsed question is a numbered line of the answer minus its number, and contains no newline |
| RelatedQuestions.NumberedOfNumbered | api/apps/conversation_app.py:574 | up to nine newline-free questions written as numbered lines are filtered back exactly |
| RelatedQuestions.ParseAfterPreamble | api/apps/conversation_app.py:574 | an unnumbered first line is skipped and the numbered questions after it are parsed back in order |
| RelatedQuestions.ParseNumberedRoundTrip | api/apps/conversation_app.py:574 | up to nine single-line questions written as `1. …`, `2. …` are parsed back exactly |
| RelatedQuestions.TwoDigitNumberIsDropped | api/apps/conversation_app.py:574 | a line numbered `10. ` is not recognised |
| SpeechClient.NormaliseBaseUrl | api/services/speech_client.py:25-26 | the base URL is a prefix of the configured one, without a trailing slash, and only slashes were removed |
| SpeechClient.TrailingSlashesIgnored | api/services/speech_client.py:26 | any number of trailing slashes in the configured URL makes no difference |
| SpeechClient.NormaliseBaseUrlIdempotent | api/services/speech_client.py:26 | normalising twice equals normalising once |
| SpeechClient.DefaultBasesAreNormal | api/services/speech_client.py:85-86 | both default base URLs are already normal |
| SpeechClient.AcceptSubmission | api/services/speech_client.py:36-44 | a task id comes only from a 200 reply that decodes with `code 0`, and then it is the reply's `task_id` |
| SpeechClient.AcceptSubmissionAgreesWithGenerate | api/services/speech_client.py:36-39 | the client yields a non-empty task id exactly when the generate handler accepts the same reply, and both take the same id |
| SpeechClient.TtsSubmitRequest | api/services/speech_client.py:31-35 | the synthesis submission posts exactly `text` and `language_id` to `/submit_tts_task` |
| SpeechClient.AsrSubmitRequest | api/services/speech_client.py:92-104 | the recognition form carries the mode, and the callback URL exactly when it is non-empty |
| SpeechClient.SubmitAsr | api/services/speech_client.py:88-113 | when the audio file cannot be opened nothing is posted and no task id results; otherwise the form is posted and the task id is exactly what the reply yields (the reply's `task_id` on 200 with `code 0`) |
| SpeechClient.Decide | api/services/speech_client.py:52-72 | one poll ends the loop with the served URL iff the status is 200 and `completed` and the result reply is 200 with a non-empty `output_url`; it ends the loop with nothing iff the poll raised, the result request raised after `completed`, or the status is `failed`; every other poll sleeps, a non-200 status among them |
| SpeechClient.PollOutcome | api/services/speech_client.py:46-74 | a URL returned comes from some poll that decided it |
| SpeechClient.PollTtsResult | api/services/speech_client.py:46-74 | the polling loop returns the value of the first deciding poll, or nothing |
| SpeechClient.PollOutcomeIsFirstDecision | api/services/speech_client.py:49-72 | after only waiting polls, the first deciding poll determines the result |
| SpeechClient.PollOutcomeTimesOut | api/services/speech_client.py:49-74 | when no poll before the deadline decides, the result is nothing |
| SpeechClient.PollOutcomeIsServedUrl | api/services/speech_client.py:56-64 | a returned URL is the base URL followed by the non-empty `output_url` of a completed status and a 200 result reply |
| SpeechClient.CompletedWithoutUrlKeepsPolling | api/services/speech_client.py:56-69 | a completed status whose result has no URL does not end the loop |
| SpeechClient.Synthesize | api/services/speech_client.py:76-81 | polling happens only for a non-empty task id; without one the result is nothing |
| SpeechClient.Render | api/services/speech_client.py:128 | a missing field renders as "", a null one as "None", a string as itself |
| SpeechClient.DialogueLines | api/services/speech_client.py:128 | one `speaker: text` line per dialogue item, in order |
| SpeechClient.GetAsrResult | api/services/speech_client.py:115-135 | a transcript needs a 200 reply with status `completed`. In any other mode it is the result's `text`, and none for a missing or null `result`. In meeting mode a missing `result` or `dialogue` gives "", a null one gives none, and otherwise the dialogue lines are joined with newlines |
| SpeechClient.MeetingTranscriptLines | api/services/speech_client.py:124-129 | a meeting transcript splits back into one line per dialogue item when no field contains a newline |

## Left out

- The database and authentication are not modelled: lookups by id, `login_required`, tenant and ownership queries, and `update_by_id`'s success. Their outcomes are inputs (a conversation or none, a tenant or none, a save that succeeds or not).
- The language-model calls (`async_chat`, `structure_answer`, `chat_mdl.async_chat`, speech model bundles) are not modelled. Their outputs (the answers, a failure message, a transcript, the model's text answer) are inputs.
- `Completion.SingleShotAgreesWithStream`: the streaming path calls `async_chat` with `stream=True` and the non-streaming path without it. Both are modelled by one answer sequence, so the lemma relates the two paths for the same answers; the program does not promise that the two calls yield the same answers (a streaming call yields incremental chunks).
- HTTP and JSON serialisation are not modelled. Frames are records rather than `json.dumps` text, response headers other than `Content-Type` are omitted, and there is no multipart parsing.
- The blob store and presigning are not modelled. Store and presign results are inputs; a store `get` that raises is modelled as an absent object, which every handler treats the same way.
- Time, sleeping and the polling deadline are not modelled. The polls made before the deadline are a finite sequence.
- Randomness is not modelled. The UUID hex of a stored object's name is an input.
- Concurrency is not modelled. Every handler runs against a snapshot of the stored conversations.
- `get`, `getsse`, `rm`, `list_conversation`, `ask_about` and `mindmap` are not modelled. They are thin wrappers over lookups and model calls, with no logic of their own beyond ownership checks.
- The prompt and generation settings of `related_questions` are not modelled; only the parser of its answer is.
- `Text.AsciiLower` lower-cases ASCII letters only. Python's `str.lower` also folds non-ASCII letters, which only matters for non-ASCII extensions, and those are rejected either way.
- `TtsStorage.UrlPath` follows `urlsplit` for ordinary URLs. It does not strip leading whitespace and control characters, does not remove the tab, carriage-return and newline characters `urlsplit` deletes anywhere in the URL, and does not treat a scheme of digits only as a port. A network location with an unbalanced `[` or `]`, where `urlsplit` raises `ValueError`, is not modelled: `tts` then falls through to its other tiers, and `download_tts` replies with a server error.
- `TtsStorage.FilenameFromUrl` always cuts `;params` off the last segment. `urlparse` does so only for schemes that use parameters (`http`, `https` and the empty scheme among them).
- `MessageEdits.DeleteMsg`: the `assert` that the following message has the same id is modelled as an error. The check disappears when Python runs with optimisations (`-O`), and that variant is not modelled.
- `Completion.ChatModelConfig`: setting values are numbers, strings, booleans or null; nested JSON values are not modelled.
- `SpeechClient.AcceptSubmission`: `code` is an integer or absent. Python's `== 0` also accepts `0.0` and `false`, which are not modelled.
- `SpeechClient.GetAsrResult`: dialogue items are objects with string, null or missing fields. Non-object items and non-string fields, which raise or render differently, are not modelled.
- `TtsTasks.Callback`: a `result` that is JSON null (where `.get` raises) is not modelled; a missing `result` and a missing `output_url` are.
- `ConversationSetup.SetConversationAsWritten`: a create request without `conversation_id` is modelled with the empty id, where the handler saves `None`. A null `dialog_id` is not told apart from a missing one: the model replies with a server error for both, which is right for a missing key (`req["dialog_id"]` raises inside the `try`), but for a null one the handler looks up `None` and replies "Dialog not found". The "Fail to update a conversation!" reply, when the re-read after a successful update fails, is not modelled.
- Logging and `print` output are not modelled.

## Findings

| source | as written | input that shows it | evidently intended | confidence | as-written member | corrected member |
|---|---|---|---|---|---|---|
| api/apps/conversation_app.py:286-296 | the temporary audio file is created before the tenant and model checks, and the early returns do not remove it | an upload `a.wav` from a user with no tenant (or no default ASR model) | every temporary file created is removed, as the transcription paths do | medium, not executed | Transcription.TempFileLeaksWithoutTenant | Transcription.Transcribe |
| api/apps/conversation_app.py:52-62 | the name is truncated to 255 characters, but the update path writes the request's own, untruncated `name` | an update request (`is_new` false) with a 300-character name | the truncated name is used on both paths | medium, not executed | ConversationSetup.UpdateWritesLongName | ConversationSetup.SetConversation |

=== FILE: completion.dfy ===
/** The data logic of the chat-completion handler: the history filter that
    decides which messages reach the model, the per-request normalisation of
    the reference list, the selection of model overrides, and the sequence of
    server-sent-event frames the streaming response emits. The answer
    generator and the persistence call are inputs. */
module Completion {
  import opened Wrappers
  import opened Records

  // ---------------------------------------------------------------------------
  // History filter
  // ---------------------------------------------------------------------------

  /** Reference definition: the messages that are not system messages, in order. */
  function NonSystem(ms: seq<Message>): seq<Message>
  {
    if |ms| == 0 then []
    else NonSystem(ms[..|ms| - 1]) + (if ms[|ms| - 1].role == SYSTEM then [] else [ms[|ms| - 1]])
  }

  /** Reference definition: drop the run of assistant messages at the front. */
  function DropLeadingAssistants(ms: seq<Message>): seq<Message>
  {
    if |ms| == 0 then []
    else if ms[0].role == ASSISTANT then DropLeadingAssistants(ms[1..])
    else ms
  }

  lemma {:induction false} NonSystemMembers(ms: seq<Message>)
    ensures forall m :: m in NonSystem(ms) <==> m in ms && m.role != SYSTEM
  {
    if |ms| > 0 {
      NonSystemMembers(ms[..|ms| - 1]);
      assert ms == ms[..|ms| - 1] + [ms[|ms| - 1]];
    }
  }

  lemma {:induction false} DropLeadingSnoc(s: seq<Message>, x: Message)
    ensures DropLeadingAssistants(s + [x]) ==
      if DropLeadingAssistants(s) == [] then (if x.role == ASSISTANT then [] else [x])
      else DropLeadingAssistants(s) + [x]
  {
    if |s| > 0 {
      assert (s + [x])[1..] == s[1..] + [x];
      if s[0].role == ASSISTANT {
        DropLeadingSnoc(s[1..], x);
      }
    } else {
      assert s + [x] == [x];
    }
  }

  /** What dropping the leading assistants leaves: a suffix of the input whose
      dropped prefix is all assistants and whose first message is not one. */
  lemma {:induction false} DropLeadingShape(s: seq<Message>)
    ensures exists j :: (0 <= j <= |s| && DropLeadingAssistants(s) == s[j..]
                         && (forall t :: 0 <= t < j ==> s[t].role == ASSISTANT))
    ensures DropLeadingAssistants(s) == [] || DropLeadingAssistants(s)[0].role != ASSISTANT
  {
    if |s| > 0 && s[0].role == ASSISTANT {
      DropLeadingShape(s[1..]);
      var j :| 0 <= j <= |s[1..]| && DropLeadingAssistants(s[1..]) == s[1..][j..]
        && (forall t :: 0 <= t < j ==> s[1..][t].role == ASSISTANT);
      assert s[1..][j..] == s[j + 1..];
      assert forall t :: 0 <= t < j + 1 ==> s[t].role == ASSISTANT by {
        forall t | 0 <= t < j + 1
          ensures s[t].role == ASSISTANT
        {
          if t > 0 {
            assert s[t] == s[1..][t - 1];
          }
        }
      }
    } else {
      assert DropLeadingAssistants(s) == s[0..];
    }
  }

  /** One more message extends the reference definitions the way one loop
      iteration extends the kept list. */
  lemma FilterSnoc(prefix: seq<Message>, m: Message)
    ensures DropLeadingAssistants(NonSystem(prefix + [m])) ==
      if m.role == SYSTEM then DropLeadingAssistants(NonSystem(prefix))
      else if m.role == ASSISTANT && DropLeadingAssistants(NonSystem(prefix)) == [] then []
      else DropLeadingAssistants(NonSystem(prefix)) + [m]
  {
    var s := prefix + [m];
    assert s[..|s| - 1] == prefix && s[|s| - 1] == m;
    if m.role == SYSTEM {
      assert NonSystem(s) == NonSystem(prefix) + [];
      assert NonSystem(prefix) + [] == NonSystem(prefix);
    } else {
      assert NonSystem(s) == NonSystem(prefix) + [m];
      DropLeadingSnoc(NonSystem(prefix), m);
    }
  }

  /** The loop at the top of the completion handler: skip system messages,
      skip assistant messages while nothing has been kept yet, keep the rest. */
  method FilterHistory(ms: seq<Message>) returns (kept: seq<Message>)
    ensures kept == DropLeadingAssistants(NonSystem(ms))
  {
    kept := [];
    var i := 0;
    while i < |ms|
      invariant 0 <= i <= |ms|
      invariant kept == DropLeadingAssistants(NonSystem(ms[..i]))
    {
      var m := ms[i];
      assert ms[..i + 1] == ms[..i] + [m];
      FilterSnoc(ms[..i], m);
      if m.role != SYSTEM && !(m.role == ASSISTANT && kept == []) {
        kept := kept + [m];
      }
      i := i + 1;
    }
    assert ms[..|ms|] == ms;
  }

  /** Dropping the leading assistant messages keeps every other message and
      adds none. */
  lemma {:induction false} DropLeadingMembers(s: seq<Message>)
    ensures forall m :: m in DropLeadingAssistants(s) ==> m in s
    ensures forall m :: m in s && m.role != ASSISTANT ==> m in DropLeadingAssistants(s)
  {
    if |s| > 0 && s[0].role == ASSISTANT {
      DropLeadingMembers(s[1..]);
      assert s == [s[0]] + s[1..];
    }
  }

  /** The filter's promises: no system message survives, the kept list does not
      start with an assistant message, every message that is neither a system
      nor an assistant message is kept, and the kept list is the tail of the
      non-system messages after a run of assistant messages. */
  lemma HistoryFilterMeaning(ms: seq<Message>)
    ensures forall m :: m in DropLeadingAssistants(NonSystem(ms)) ==> m in ms && m.role != SYSTEM
    ensures forall m :: m in ms && m.role != SYSTEM && m.role != ASSISTANT ==>
      m in DropLeadingAssistants(NonSystem(ms))
    ensures DropLeadingAssistants(NonSystem(ms)) == [] || DropLeadingAssistants(NonSystem(ms))[0].role != ASSISTANT
    ensures exists j :: (0 <= j <= |NonSystem(ms)| && DropLeadingAssistants(NonSystem(ms)) == NonSystem(ms)[j..]
                         && (forall t :: 0 <= t < j ==> NonSystem(ms)[t].role == ASSISTANT))
  {
    NonSystemMembers(ms);
    DropLeadingMembers(NonSystem(ms));
    DropLeadingShape(NonSystem(ms));
  }

  datatype CompletionError = NothingToAnswer

  /** The filtered history and `message_id`, the id of the last kept message.
      An empty filtered history makes `msg[-1]` raise, which the model reports
      as `NothingToAnswer`. */
  method PrepareHistory(ms: seq<Message>) returns (r: Result<(seq<Message>, Option<string>), CompletionError>)
    ensures r.Err? <==> DropLeadingAssistants(NonSystem(ms)) == []
    ensures r.Ok? ==> r.value.0 == DropLeadingAssistants(NonSystem(ms))
    ensures r.Ok? ==> exists m :: m in ms && m.role != SYSTEM && r.value.1 == IdOrNone(m)
    ensures r.Ok? ==> IdOrNone(r.value.0[|r.value.0| - 1]) == r.value.1
  {
    var kept := FilterHistory(ms);
    if |kept| == 0 {
      return Err(NothingToAnswer);
    }
    HistoryFilterMeaning(ms);
    var last := kept[|kept| - 1];
    assert last in kept;
    r := Ok((kept, IdOrNone(last)));
  }

  // ---------------------------------------------------------------------------
  // Reference normalisation
  // ---------------------------------------------------------------------------

  /** The reference entries that are truthy (`[r for r in reference if r]`). */
  function TruthyReferences(refs: seq<Reference>): (kept: seq<Reference>)
    ensures |kept| <= |refs|
    ensures forall x :: x in kept <==> x in refs && x.Block?
  {
    if |refs| == 0 then []
    else (if refs[0].Block? then [refs[0]] else []) + TruthyReferences(refs[1..])
  }

  /** Every request drops the falsy reference entries and appends one empty
      block for the answer about to be generated. */
  function NormaliseReferences(refs: seq<Reference>): (r: seq<Reference>)
    ensures |r| >= 1 && r[|r| - 1] == EMPTY_BLOCK
    ensures forall i :: 0 <= i < |r| ==> r[i].Block?
    ensures forall x :: x in r[..|r| - 1] <==> x in refs && x.Block?
    ensures |r| <= |refs| + 1
  {
    var kept := TruthyReferences(refs);
    assert (kept + [EMPTY_BLOCK])[..|kept|] == kept;
    kept + [EMPTY_BLOCK]
  }

  /** The filter works entry by entry: filtering a concatenation is the
      concatenation of the filtered parts, so the kept blocks keep their order
      and their repetitions. */
  lemma {:induction false} TruthyReferencesAppend(a: seq<Reference>, b: seq<Reference>)
    ensures TruthyReferences(a + b) == TruthyReferences(a) + TruthyReferences(b)
  {
    if |a| > 0 {
      assert (a + b)[1..] == a[1..] + b;
      TruthyReferencesAppend(a[1..], b);
    } else {
      assert a + b == b;
    }
  }

  /** A single entry is kept exactly when it is a block. */
  lemma TruthyReferencesSingle(x: Reference)
    ensures TruthyReferences([x]) == if x.Block? then [x] else []
  {
    assert [x][1..] == [];
  }

  /** Normalising a concatenation filters the first part and normalises the
      second: the old blocks keep their places, in order, before the new slot. */
  lemma NormaliseReferencesAppend(a: seq<Reference>, b: seq<Reference>)
    ensures NormaliseReferences(a + b) == TruthyReferences(a) + NormaliseReferences(b)
  {
    TruthyReferencesAppend(a, b);
    NormaliseUnfold(a + b);
    NormaliseUnfold(b);
    SnocAssoc(TruthyReferences(a), TruthyReferences(b), EMPTY_BLOCK);
  }

  lemma SnocAssoc<T>(x: seq<T>, y: seq<T>, e: T)
    ensures (x + y) + [e] == x + (y + [e])
  {
  }

  lemma NormaliseUnfold(refs: seq<Reference>)
    ensures NormaliseReferences(refs) == TruthyReferences(refs) + [EMPTY_BLOCK]
  {
  }

  lemma {:induction false} TruthyReferencesKeepsBlocks(refs: seq<Reference>)
    requires forall i :: 0 <= i < |refs| ==> refs[i].Block?
    ensures TruthyReferences(refs) == refs
  {
    if |refs| > 0 {
      TruthyReferencesKeepsBlocks(refs[1..]);
      assert refs == [refs[0]] + refs[1..];
    }
  }

  /** Normalising an already normalised list only appends one more block: each
      request adds exactly one reference slot and loses none. */
  lemma NormaliseAppendsOne(refs: seq<Reference>)
    ensures NormaliseReferences(NormaliseReferences(refs)) == NormaliseReferences(refs) + [EMPTY_BLOCK]
  {
    TruthyReferencesKeepsBlocks(NormaliseReferences(refs));
  }

  // ---------------------------------------------------------------------------
  // Model overrides
  // ---------------------------------------------------------------------------

  /** A request parameter value, with Python's truthiness. */
  datatype Setting = Number(x: real) | Text(s: string) | Flag(b: bool) | Null {
    predicate IsTruthy() {
      match this
      case Number(x) => x != 0.0
      case Text(s) => s != ""
      case Flag(b) => b
      case Null => false
    }
  }

  const MODEL_CONFIG_KEYS: seq<string> := ["temperature", "top_p", "frequency_penalty", "presence_penalty", "max_tokens"]

  /** `chat_model_config`: the generation parameters of the fixed list that the
      request sets to a truthy value, copied unchanged. */
  method ChatModelConfig(req: map<string, Setting>) returns (config: map<string, Setting>)
    ensures forall k :: k in config <==> k in MODEL_CONFIG_KEYS && k in req && req[k].IsTruthy()
    ensures forall k :: k in config ==> config[k] == req[k]
  {
    config := map[];
    var i := 0;
    while i < |MODEL_CONFIG_KEYS|
      invariant 0 <= i <= |MODEL_CONFIG_KEYS|
      invariant forall k :: k in config <==> k in MODEL_CONFIG_KEYS[..i] && k in req && req[k].IsTruthy()
      invariant forall k :: k in config ==> config[k] == req[k]
    {
      var key := MODEL_CONFIG_KEYS[i];
      assert MODEL_CONFIG_KEYS[..i + 1] == MODEL_CONFIG_KEYS[..i] + [key];
      if key in req && req[key].IsTruthy() {
        config := config[key := req[key]];
      }
      i := i + 1;
    }
    assert MODEL_CONFIG_KEYS[..i] == MODEL_CONFIG_KEYS;
  }

  // ---------------------------------------------------------------------------
  // Stream framing
  // ---------------------------------------------------------------------------

  const ERROR_PREFIX := "**ERROR**: "

  /** A structured answer as the answer generator yields it. */
  datatype Answer = Answer(answer: string, reference: seq<Reference>)

  /** The `data` field of a frame: a (partial) answer, or `true` for the end. */
  datatype Payload = Partial(answer: Answer) | Done

  /** One `data:` event: the JSON envelope `{code, message, data}`. */
  datatype Frame = Frame(code: int, message: string, data: Payload)

  function AnswerFrame(a: Answer): Frame {
    Frame(0, "", Partial(a))
  }

  /** The frame the handler emits when the generator (or the save) raises. */
  function ErrorFrame(e: string): Frame {
    Frame(500, e, Partial(Answer(ERROR_PREFIX + e, [])))
  }

  const DONE_FRAME := Frame(0, "", Done)

  function AnswerFrames(answers: seq<Answer>): (fs: seq<Frame>)
    ensures |fs| == |answers|
    ensures forall i :: 0 <= i < |answers| ==> fs[i] == AnswerFrame(answers[i])
  {
    if |answers| == 0 then [] else [AnswerFrame(answers[0])] + AnswerFrames(answers[1..])
  }

  datatype StreamRun = StreamRun(frames: seq<Frame>, persisted: bool)

  /** A conversation is embedded when the request names a model override. */
  predicate IsEmbedded(chatModelId: string) {
    chatModelId != ""
  }

  /** The streaming generator. `answers` are what the answer generator yields
      before it finishes or raises `failure`; the save runs only after a
      generator that did not raise, and only for a non-embedded conversation,
      and raises `persistFailure` if that is present. */
  function Stream(answers: seq<Answer>, failure: Option<string>, chatModelId: string,
                  persistFailure: Option<string>): (run: StreamRun)
    ensures |run.frames| >= |answers| + 1
    ensures forall i :: 0 <= i < |answers| ==> run.frames[i] == AnswerFrame(answers[i])
    ensures run.frames[|run.frames| - 1] == DONE_FRAME
    ensures forall i :: 0 <= i < |run.frames| - 1 ==> run.frames[i].data.Partial?
    ensures failure.Some? ==> run.frames == AnswerFrames(answers) + [ErrorFrame(failure.value), DONE_FRAME]
    ensures run.persisted <==> failure.None? && !IsEmbedded(chatModelId) && persistFailure.None?
    ensures failure.None? && IsEmbedded(chatModelId) ==> run.frames == AnswerFrames(answers) + [DONE_FRAME]
    ensures failure.None? && !IsEmbedded(chatModelId) && persistFailure.None?
            ==> run.frames == AnswerFrames(answers) + [DONE_FRAME]
    ensures failure.None? && !IsEmbedded(chatModelId) && persistFailure.Some?
            ==> run.frames == AnswerFrames(answers) + [ErrorFrame(persistFailure.value), DONE_FRAME]
  {
    var error := if failure.Some? then failure
                 else if !IsEmbedded(chatModelId) then persistFailure
                 else None;
    var tail := if error.Some? then [ErrorFrame(error.value)] else [];
    StreamRun(AnswerFrames(answers) + tail + [DONE_FRAME],
              failure.None? && !IsEmbedded(chatModelId) && persistFailure.None?)
  }

  function CountDone(fs: seq<Frame>): nat {
    if |fs| == 0 then 0 else (if fs[0].data.Done? then 1 else 0) + CountDone(fs[1..])
  }

  function CountErrors(fs: seq<Frame>): nat {
    if |fs| == 0 then 0 else (if fs[0].code == 500 then 1 else 0) + CountErrors(fs[1..])
  }

  lemma {:induction false} CountsAppend(a: seq<Frame>, b: seq<Frame>)
    ensures CountDone(a + b) == CountDone(a) + CountDone(b)
    ensures CountErrors(a + b) == CountErrors(a) + CountErrors(b)
  {
    if |a| > 0 {
      assert (a + b)[1..] == a[1..] + b;
      CountsAppend(a[1..], b);
    } else {
      assert a + b == b;
    }
  }

  lemma {:induction false} AnswerFramesCounts(answers: seq<Answer>)
    ensures CountDone(AnswerFrames(answers)) == 0
    ensures CountErrors(AnswerFrames(answers)) == 0
  {
    if |answers| > 0 {
      AnswerFramesCounts(answers[1..]);
    }
  }

  /** The stream always closes exactly once, and carries exactly one error
      frame when the generator or the save raised, and none otherwise. */
  lemma StreamClosesOnce(answers: seq<Answer>, failure: Option<string>, chatModelId: string,
                         persistFailure: Option<string>)
    ensures CountDone(Stream(answers, failure, chatModelId, persistFailure).frames) == 1
    ensures CountErrors(Stream(answers, failure, chatModelId, persistFailure).frames) ==
      (if failure.Some? || (!IsEmbedded(chatModelId) && persistFailure.Some?) then 1 else 0)
  {
    var error := if failure.Some? then failure
                 else if !IsEmbedded(chatModelId) then persistFailure
                 else None;
    var tail := if error.Some? then [ErrorFrame(error.value)] else [];
    AnswerFramesCounts(answers);
    CountsAppend(AnswerFrames(answers), tail);
    CountsAppend(AnswerFrames(answers) + tail, [DONE_FRAME]);
  }

  /** A generator that raises after its first item: the client sees that item,
      one error frame and the end frame, and nothing is saved. */
  lemma FailureAfterFirstAnswer(a: Answer, e: string, chatModelId: string, persistFailure: Option<string>)
    ensures Stream([a], Some(e), chatModelId, persistFailure) ==
      StreamRun([AnswerFrame(a), ErrorFrame(e), DONE_FRAME], false)
  {
  }

  /** The reply of the non-streaming branch: the answer (`null` when the
      generator yields nothing), or `server_error_response` for an exception. */
  datatype SingleShotReply = Answered(answer: Option<Answer>) | ServerError(message: string)

  /** The non-streaming branch: the first answer only, saved when the
      conversation is not embedded. `answers` are what the generator yields
      before it finishes or raises `failure`; the loop stops after the first
      answer, so a later failure is never seen. The save raises
      `persistFailure` if that is present. The flag says whether the save
      happened. */
  function SingleShot(answers: seq<Answer>, failure: Option<string>, chatModelId: string,
                      persistFailure: Option<string>): (r: (SingleShotReply, bool))
    ensures |answers| == 0 ==> r == (if failure.Some? then ServerError(failure.value) else Answered(None), false)
    ensures |answers| > 0 && IsEmbedded(chatModelId) ==> r == (Answered(Some(answers[0])), false)
    ensures |answers| > 0 && !IsEmbedded(chatModelId) && persistFailure.Some?
            ==> r == (ServerError(persistFailure.value), false)
    ensures |answers| > 0 && !IsEmbedded(chatModelId) && persistFailure.None?
            ==> r == (Answered(Some(answers[0])), true)
  {
    if |answers| == 0 then
      (if failure.Some? then ServerError(failure.value) else Answered(None), false)
    else if IsEmbedded(chatModelId) then (Answered(Some(answers[0])), false)
    else if persistFailure.Some? then (ServerError(persistFailure.value), false)
    else (Answered(Some(answers[0])), true)
  }

  /** The non-streaming answer is the first frame the stream would send, and
      when the generator does not raise, the two branches save alike once
      there is an answer; a raising save yields an error in both. */
  lemma SingleShotAgreesWithStream(answers: seq<Answer>, chatModelId: string, persistFailure: Option<string>)
    requires |answers| > 0
    ensures var (reply, saved) := SingleShot(answers, None, chatModelId, persistFailure);
      var run := Stream(answers, None, chatModelId, persistFailure);
      && saved == run.persisted
      && (reply.Answered? ==> run.frames[0] == AnswerFrame(reply.answer.value) && CountErrors(run.frames) == 0)
      && (reply.ServerError? ==> ErrorFrame(reply.message) in run.frames)
  {
    StreamClosesOnce(answers, None, chatModelId, persistFailure);
  }
  /** Where the two paths part: the non-streaming loop saves after the first
      answer and never asks the generator for more, so a failure the stream
      would meet after that answer leaves the stream unsaved while the
      non-streaming reply is saved. */
  lemma SingleShotSavesBeforeLaterFailure(answer: Answer, error: string, chatModelId: string)
    requires !IsEmbedded(chatModelId)
    ensures SingleShot([answer], Some(error), chatModelId, None) == (Answered(Some(answer)), true)
    ensures !Stream([answer], Some(error), chatModelId, None).persisted
    ensures Stream([answer], Some(error), chatModelId, None).frames
            == [AnswerFrame(answer), ErrorFrame(error), DONE_FRAME]
  {
  }

}

=== FILE: conversation_setup.dfy ===
/** Creating or renaming a conversation (`/set`): the default name, the
    255-character limit, the record a new conversation starts from, and the
    requests the handler cannot process. The dialog lookup and the update's
    success are inputs. */
module ConversationSetup {
  import opened Wrappers
  import opened Records

  const DEFAULT_NAME := "New conversation"
  const MAX_NAME_LENGTH := 255

  /** `name[0:255]` when the name is longer than 255 code points. */
  function TruncateName(name: string): (r: string)
    ensures |r| <= MAX_NAME_LENGTH
    ensures r <= name
    ensures |name| <= MAX_NAME_LENGTH ==> r == name
    ensures |name| > MAX_NAME_LENGTH ==> |r| == MAX_NAME_LENGTH
  {
    if |name| > MAX_NAME_LENGTH then name[..MAX_NAME_LENGTH] else name
  }

  lemma TruncateNameIdempotent(name: string)
    ensures TruncateName(TruncateName(name)) == TruncateName(name)
  {
  }

  /** The request body. `is_new`, `conversation_id` and `name` tell a missing
      key apart from `null`, because the handler treats them differently;
      `dialogId` is `None` when the key is missing or null. */
  datatype SetRequest = SetRequest(isNew: Slot<bool>, conversationId: Slot<string>,
                                   dialogId: Option<string>, name: Slot<string>)

  /** The dialog a new conversation is created from; only its prologue matters here. */
  datatype Dialog = Dialog(prologue: string)

  datatype SetOutcome =
    | Created(conv: Conversation)
    | Updated(id: Option<string>, name: Option<string>)  // the id updated (None for a null id) and the name written
    | DialogNotFound                                     // "Dialog not found"
    | ConversationNotFound                               // "Conversation not found!"
    | ServerError                                        // `server_error_response`: an exception inside the `try`
    | Uncaught                                           // an exception before the `try`: the framework's error reply

  /** `is_new` is truthy: only a present `true` selects creation. */
  predicate Creates(req: SetRequest) {
    req.isNew == Present(true)
  }

  /** The request's `name` as the update writes it: absent when not sent. */
  function SentName(name: Slot<string>): Option<string> {
    match name
    case Present(s) => Some(s)
    case _ => None
  }

  /** `conv_id`: `req.get("conversation_id")`. */
  function ConversationId(req: SetRequest): Option<string> {
    match req.conversationId
    case Present(s) => Some(s)
    case _ => None
  }

  /** The record of a new conversation: the dialog's prologue as its only
      message, no references, no speech fields. */
  function NewConversation(id: string, dialogId: string, name: Option<string>, dialog: Dialog): (c: Conversation)
    ensures c.id == id && c.dialogId == dialogId
    ensures c.name == TruncateName(name.GetOr(DEFAULT_NAME))
    ensures |c.messages| == 1 && c.messages[0].role == ASSISTANT && c.messages[0].content == dialog.prologue
    ensures c.reference == [] && c.ttsTaskId.None? && c.ttsStatus.None? && c.ttsFileUrl.None?
  {
    Conversation(id, dialogId, TruncateName(name.GetOr(DEFAULT_NAME)),
                 [Message(ASSISTANT, dialog.prologue, Absent, None, None, None, None, None, None)],
                 [], None, None, None)
  }

  /** The handler as written. A null `name` fails `len`, a missing `is_new`
      fails `del`, and an update without `conversation_id` fails the second
      `del`, all before the `try`. The truncated name is used only when
      creating; an update writes the request's name as it came. */
  function SetConversationAsWritten(req: SetRequest, dialog: Option<Dialog>, exists_: bool): (o: SetOutcome)
    ensures req.name.Null? ==> o == Uncaught
    ensures !req.name.Null? && req.isNew.Absent? ==> o == Uncaught
    ensures !req.name.Null? && !req.isNew.Absent? && !Creates(req) && req.conversationId.Absent? ==> o == Uncaught
    ensures o.Updated? <==> (!req.name.Null? && !req.isNew.Absent? && !Creates(req)
                             && !req.conversationId.Absent? && exists_)
    ensures o.Updated? ==> o == Updated(ConversationId(req), SentName(req.name))
    ensures o == ConversationNotFound <==> (!req.name.Null? && !req.isNew.Absent? && !Creates(req)
                                           && !req.conversationId.Absent? && !exists_)
    ensures o.Created? || o == DialogNotFound || o == ServerError ==> Creates(req) && !req.name.Null?
    ensures Creates(req) && !req.name.Null? && req.dialogId.None? ==> o == ServerError
    ensures Creates(req) && !req.name.Null? && req.dialogId.Some? && dialog.None? ==> o == DialogNotFound
    ensures o.Created? ==> |o.conv.name| <= MAX_NAME_LENGTH && o.conv.dialogId == req.dialogId.value
    ensures Creates(req) && !req.name.Null? && req.dialogId.Some? && dialog.Some?
            ==> o == Created(NewConversation(ConversationId(req).GetOr(""), req.dialogId.value,
                                             SentName(req.name), dialog.value))
  {
    if req.name.Null? then Uncaught
    else if req.isNew.Absent? then Uncaught
    else if !Creates(req) then
      if req.conversationId.Absent? then Uncaught
      else if exists_ then Updated(ConversationId(req), SentName(req.name))
      else ConversationNotFound
    else if req.dialogId.None? then ServerError
    else if dialog.None? then DialogNotFound
    else Created(NewConversation(ConversationId(req).GetOr(""), req.dialogId.value, SentName(req.name), dialog.value))
  }

  /** A request without `is_new` is never processed, whatever else it holds. */
  lemma MissingIsNewFails(conversationId: Slot<string>, dialogId: Option<string>, name: Slot<string>,
                          dialog: Option<Dialog>, exists_: bool)
    ensures SetConversationAsWritten(SetRequest(Absent, conversationId, dialogId, name), dialog, exists_) == Uncaught
  {
  }

  /** An update with a 300-character name writes all 300 characters. */
  lemma UpdateWritesLongName(id: string)
    ensures var long := seq(300, _ => 'x');
      var o := SetConversationAsWritten(SetRequest(Present(false), Present(id), None, Present(long)), None, true);
      o.Updated? && o.name.Some? && |o.name.value| > MAX_NAME_LENGTH
  {
  }

  /** The handler with the limit applied on both paths: no written name is
      longer than 255, and everything else is as written. */
  function SetConversation(req: SetRequest, dialog: Option<Dialog>, exists_: bool): (o: SetOutcome)
    ensures o.Created? ==> |o.conv.name| <= MAX_NAME_LENGTH
    ensures o.Updated? && o.name.Some? ==> |o.name.value| <= MAX_NAME_LENGTH
    ensures o.Updated? <==> SetConversationAsWritten(req, dialog, exists_).Updated?
    ensures !o.Updated? ==> o == SetConversationAsWritten(req, dialog, exists_)
    ensures o.Updated? ==> o.id == SetConversationAsWritten(req, dialog, exists_).id
    ensures o.Updated? && (req.name.Absent? || (req.name.Present? && |req.name.value| <= MAX_NAME_LENGTH))
            ==> o == SetConversationAsWritten(req, dialog, exists_)
    ensures o.Updated? ==> o.name == (if req.name.Present? then Some(TruncateName(req.name.value)) else None)
  {
    match SetConversationAsWritten(req, dialog, exists_)
    case Updated(id, name) => Updated(id, if name.Some? then Some(TruncateName(name.value)) else None)
    case o => o
  }
}

=== FILE: message_edits.dfy ===
/** The two handlers that edit one message of a stored conversation:
    deleting a question/answer pair, and rating an answer. */
module MessageEdits {
  import opened Wrappers
  import opened Records

  // ---------------------------------------------------------------------------
  // Deleting a message pair
  // ---------------------------------------------------------------------------

  /** Message `i` is the first whose id (missing id read as "", null id never
      equal) is `mid`. */
  predicate IsFirstIdMatch(ms: seq<Message>, mid: string, i: int) {
    0 <= i < |ms| && IdOrEmpty(ms[i]) == Some(mid)
    && forall j :: 0 <= j < i ==> IdOrEmpty(ms[j]) != Some(mid)
  }

  function FirstIdMatch(ms: seq<Message>, mid: string): (r: Option<nat>)
    ensures r.None? <==> forall j :: 0 <= j < |ms| ==> IdOrEmpty(ms[j]) != Some(mid)
    ensures r.Some? ==> IsFirstIdMatch(ms, mid, r.value)
    ensures r.Some? ==> !ms[r.value].id.Null?
  {
    if |ms| == 0 then None
    else if IdOrEmpty(ms[0]) == Some(mid) then Some(0)
    else
      match FirstIdMatch(ms[1..], mid)
      case None => None
      case Some(k) =>
        assert forall j :: 1 <= j < k + 1 ==> ms[j] == ms[1..][j - 1];
        Some(k + 1)
  }

  /** `max(0, i // 2 - 1)`: the reference entry removed together with the pair
      found at index `i` (for `i >= 0` floor division agrees with Dafny's). */
  function ReferenceSlot(i: nat): nat {
    if i / 2 - 1 > 0 then i / 2 - 1 else 0
  }

  datatype EditError =
    | NoFollowingMessage        // `conv["message"][i + 1]` raises IndexError
    | FollowerMismatch          // the follower has no id (KeyError) or another id (AssertionError)
    | ReferenceIndexOutOfRange  // `conv["reference"].pop(...)` raises IndexError

  /** `delete_msg`: the first message whose id matches and the one after it
      (which must carry the same id) are removed, together with one reference
      entry; a conversation without a matching message is returned unchanged.
      An exception means nothing is saved. */
  function DeleteMsg(c: Conversation, mid: string): (r: Result<Conversation, EditError>)
    ensures (forall j :: 0 <= j < |c.messages| ==> IdOrEmpty(c.messages[j]) != Some(mid)) ==> r == Ok(c)
    ensures forall i :: IsFirstIdMatch(c.messages, mid, i) ==>
      (r.Ok? <==> i + 1 < |c.messages| && c.messages[i + 1].id == Present(mid) && ReferenceSlot(i) < |c.reference|)
    ensures forall i :: IsFirstIdMatch(c.messages, mid, i) && r.Ok? ==>
      r.value == c.(messages := c.messages[..i] + c.messages[i + 2..],
                    reference := c.reference[..ReferenceSlot(i)] + c.reference[ReferenceSlot(i) + 1..])
  {
    match FirstIdMatch(c.messages, mid)
    case None => Ok(c)
    case Some(i) =>
      if i + 1 >= |c.messages| then Err(NoFollowingMessage)
      else if c.messages[i + 1].id != Present(mid) then Err(FollowerMismatch)
      else if ReferenceSlot(i) >= |c.reference| then Err(ReferenceIndexOutOfRange)
      else
        var k := ReferenceSlot(i);
        Ok(c.(messages := c.messages[..i] + c.messages[i + 2..],
              reference := c.reference[..k] + c.reference[k + 1..]))
  }

  /** A successful deletion removes exactly two messages sharing the id and
      exactly one reference entry; every other message keeps its order and
      the rest of the record is untouched. */
  lemma DeleteMsgRemovesPair(c: Conversation, mid: string, i: nat)
    requires IsFirstIdMatch(c.messages, mid, i)
    requires DeleteMsg(c, mid).Ok?
    ensures var d := DeleteMsg(c, mid).value;
      && |d.messages| == |c.messages| - 2
      && |d.reference| == |c.reference| - 1
      && IdOrEmpty(c.messages[i]) == Some(mid) && c.messages[i + 1].id == Present(mid)
      && (forall j :: 0 <= j < i ==> d.messages[j] == c.messages[j])
      && (forall j :: i <= j < |d.messages| ==> d.messages[j] == c.messages[j + 2])
      && (forall j :: 0 <= j < ReferenceSlot(i) ==> d.reference[j] == c.reference[j])
      && (forall j :: ReferenceSlot(i) <= j < |d.reference| ==> d.reference[j] == c.reference[j + 1])
      && d.id == c.id && d.ttsTaskId == c.ttsTaskId && d.ttsStatus == c.ttsStatus && d.ttsFileUrl == c.ttsFileUrl
  {
  }

  // ---------------------------------------------------------------------------
  // Rating an answer
  // ---------------------------------------------------------------------------

  /** A message the rating applies to: an assistant message with the id. */
  predicate Ratable(m: Message, mid: string) {
    IdOrEmpty(m) == Some(mid) && m.role == ASSISTANT
  }

  predicate IsFirstRatable(ms: seq<Message>, mid: string, i: int) {
    0 <= i < |ms| && Ratable(ms[i], mid) && forall j :: 0 <= j < i ==> !Ratable(ms[j], mid)
  }

  /** The rating of one message: thumbs-up clears the feedback; thumbs-down
      stores the feedback text only when it is non-empty. */
  function Rate(m: Message, up: bool, feedback: string): (r: Message)
    ensures r.thumbup == Some(up)
    ensures up ==> r.feedback == None
    ensures !up ==> r.feedback == (if feedback != "" then Some(feedback) else m.feedback)
    ensures r == m.(thumbup := r.thumbup, feedback := r.feedback)
  {
    if up then m.(thumbup := Some(true), feedback := None)
    else if feedback != "" then m.(thumbup := Some(false), feedback := Some(feedback))
    else m.(thumbup := Some(false))
  }

  /** The loop of the rating handler: rate the first ratable message and stop. */
  function RateFirst(ms: seq<Message>, mid: string, up: bool, feedback: string): (r: seq<Message>)
    ensures |r| == |ms|
    ensures forall i :: IsFirstRatable(ms, mid, i) ==>
      r[i] == Rate(ms[i], up, feedback) && forall j :: 0 <= j < |ms| && j != i ==> r[j] == ms[j]
    ensures (forall j :: 0 <= j < |ms| ==> !Ratable(ms[j], mid)) ==> r == ms
  {
    if |ms| == 0 then []
    else if Ratable(ms[0], mid) then [Rate(ms[0], up, feedback)] + ms[1..]
    else
      var rest := RateFirst(ms[1..], mid, up, feedback);
      assert forall i :: IsFirstRatable(ms, mid, i) ==> IsFirstRatable(ms[1..], mid, i - 1);
      [ms[0]] + rest
  }

  /** `thumbup`: `up` is the truthiness of the request's `thumbup` value and
      `feedback` its `feedback` text (default ""). Only the messages change. */
  function Thumbup(c: Conversation, mid: string, up: bool, feedback: string): (r: Conversation)
    ensures r == c.(messages := r.messages)
    ensures |r.messages| == |c.messages|
    ensures forall i :: IsFirstRatable(c.messages, mid, i) ==>
      r.messages[i] == Rate(c.messages[i], up, feedback)
      && forall j :: 0 <= j < |c.messages| && j != i ==> r.messages[j] == c.messages[j]
    ensures (forall j :: 0 <= j < |c.messages| ==> !Ratable(c.messages[j], mid)) ==> r == c
  {
    c.(messages := RateFirst(c.messages, mid, up, feedback))
  }

  lemma {:induction false} RateFirstIdempotent(ms: seq<Message>, mid: string, up: bool, feedback: string)
    ensures RateFirst(RateFirst(ms, mid, up, feedback), mid, up, feedback) == RateFirst(ms, mid, up, feedback)
  {
    if |ms| > 0 && !Ratable(ms[0], mid) {
      RateFirstIdempotent(ms[1..], mid, up, feedback);
      var once := RateFirst(ms, mid, up, feedback);
      assert once[1..] == RateFirst(ms[1..], mid, up, feedback);
    } else if |ms| > 0 {
      var once := RateFirst(ms, mid, up, feedback);
      assert once[1..] == ms[1..];
    }
  }

  /** Rating the same answer twice with the same request is the same as rating
      it once. */
  lemma ThumbupIdempotent(c: Conversation, mid: string, up: bool, feedback: string)
    ensures Thumbup(Thumbup(c, mid, up, feedback), mid, up, feedback) == Thumbup(c, mid, up, feedback)
  {
    RateFirstIdempotent(c.messages, mid, up, feedback);
  }
}

=== FILE: playback.dfy ===
/** Serving synthesized audio: the playback handler's three-tier fallback
    (conversation-level file, then a message-level file when the tenant has no
    speech model, then the "no model" error), its sentence splitter for live
    synthesis, and the download handler's guards. The conversation lookup, the
    tenant lookup and the blob store are inputs. */
module Playback {
  import opened Wrappers
  import opened Records
  import opened TtsStorage
  import Text
  import TtsTasks

  // ---------------------------------------------------------------------------
  // Sentence splitter for live synthesis (`re.split(r"[，。/《》？；：！\n\r:;]+", text)`)
  // ---------------------------------------------------------------------------

  const DELIMITERS: set<char> := {'，', '。', '/', '《', '》', '？', '；', '：', '！', '\n', '\r', ':', ';'}

  /** Length of the run of delimiters at the front of `s`. */
  function LeadingDelimiters(s: string): (n: nat)
    ensures n <= |s|
    ensures forall j :: 0 <= j < n ==> s[j] in DELIMITERS
    ensures n < |s| ==> s[n] !in DELIMITERS
  {
    if |s| > 0 && s[0] in DELIMITERS then 1 + LeadingDelimiters(s[1..]) else 0
  }

  /** The text with every delimiter removed. */
  function WithoutDelimiters(s: string): string {
    if |s| == 0 then "" else (if s[0] in DELIMITERS then "" else [s[0]]) + WithoutDelimiters(s[1..])
  }

  function Concat(parts: seq<string>): string {
    if |parts| == 0 then "" else parts[0] + Concat(parts[1..])
  }

  predicate DelimiterFree(s: string) {
    forall j :: 0 <= j < |s| ==> s[j] !in DELIMITERS
  }

  lemma {:induction false} WithoutDelimitersAppend(a: string, b: string)
    ensures WithoutDelimiters(a + b) == WithoutDelimiters(a) + WithoutDelimiters(b)
  {
    if |a| > 0 {
      assert (a + b)[1..] == a[1..] + b;
      WithoutDelimitersAppend(a[1..], b);
    } else {
      assert a + b == b;
    }
  }

  lemma {:induction false} WithoutDelimitersFree(s: string)
    requires DelimiterFree(s)
    ensures WithoutDelimiters(s) == s
  {
    if |s| > 0 {
      WithoutDelimitersFree(s[1..]);
    }
  }

  lemma {:induction false} WithoutDelimitersRun(s: string)
    requires forall j :: 0 <= j < |s| ==> s[j] in DELIMITERS
    ensures WithoutDelimiters(s) == ""
  {
    if |s| > 0 {
      WithoutDelimitersRun(s[1..]);
    }
  }

  /** The pieces between maximal runs of delimiters. */
  function SplitSentences(s: string): (parts: seq<string>)
    ensures |parts| >= 1
    ensures |s| == 0 ==> parts == [""]
    decreases |s|
  {
    var k := FirstOf(s, DELIMITERS);
    if k == |s| then [s]
    else [s[..k]] + SplitSentences(s[k + LeadingDelimiters(s[k..])..])
  }

  /** Every piece is free of delimiters, and interior pieces are never empty:
      only a leading or trailing run of delimiters gives an empty first or
      last piece. */
  lemma {:induction false} SplitSentencesPieces(s: string)
    ensures |s| > 0 && s[0] !in DELIMITERS ==> SplitSentences(s)[0] != ""
    ensures forall i :: 0 <= i < |SplitSentences(s)| ==> DelimiterFree(SplitSentences(s)[i])
    ensures forall i :: 0 < i < |SplitSentences(s)| - 1 ==> SplitSentences(s)[i] != ""
    decreases |s|
  {
    var k := FirstOf(s, DELIMITERS);
    if k < |s| {
      var e := k + LeadingDelimiters(s[k..]);
      var rest := SplitSentences(s[e..]);
      SplitSentencesPieces(s[e..]);
      var parts := [s[..k]] + rest;
      assert SplitSentences(s) == parts;
      assert DelimiterFree(s[..k]);
      forall i | 0 < i < |parts|
        ensures parts[i] == rest[i - 1]
      {
      }
      if |rest| > 1 {
        assert |s[e..]| > 0;
      }
    }
  }

  lemma WithoutDelimitersPiece(a: string, b: string, c: string)
    requires DelimiterFree(a)
    requires forall j :: 0 <= j < |b| ==> b[j] in DELIMITERS
    ensures WithoutDelimiters(a + b + c) == a + WithoutDelimiters(c)
  {
    calc {
      WithoutDelimiters(a + b + c);
      { WithoutDelimitersAppend(a + b, c); }
      WithoutDelimiters(a + b) + WithoutDelimiters(c);
      { WithoutDelimitersAppend(a, b); }
      WithoutDelimiters(a) + WithoutDelimiters(b) + WithoutDelimiters(c);
      { WithoutDelimitersFree(a); WithoutDelimitersRun(b); }
      a + "" + WithoutDelimiters(c);
    }
    assert a + "" == a;
  }

  /** The pieces concatenated are the text with its delimiters removed. */
  lemma {:induction false} SplitSentencesConcat(s: string)
    ensures Concat(SplitSentences(s)) == WithoutDelimiters(s)
    decreases |s|
  {
    var k := FirstOf(s, DELIMITERS);
    if k == |s| {
      WithoutDelimitersFree(s);
    } else {
      var e := k + LeadingDelimiters(s[k..]);
      var a, b, c := s[..k], s[k..e], s[e..];
      assert s == a + b + c;
      DelimiterRun(s, k, e);
      SplitSentencesAt(s, k, e);
      SplitSentencesConcat(c);
      ConcatCons(a, SplitSentences(c));
      WithoutDelimitersPiece(a, b, c);
    }
  }

  /** What the splitter finds in `s`: a delimiter-free head, then a maximal
      non-empty run of delimiters. */
  lemma DelimiterRun(s: string, k: nat, e: nat)
    requires k == FirstOf(s, DELIMITERS) < |s| && e == k + LeadingDelimiters(s[k..])
    ensures k < e <= |s|
    ensures DelimiterFree(s[..k])
    ensures forall j :: 0 <= j < |s[k..e]| ==> s[k..e][j] in DELIMITERS
    ensures |s[e..]| == 0 || s[e..][0] !in DELIMITERS
  {
    var t := s[k..];
    var n := LeadingDelimiters(t);
    assert t[0] == s[k];
    assert n >= 1;
    forall j | 0 <= j < k
      ensures s[..k][j] !in DELIMITERS
    {
      assert s[..k][j] == s[j];
    }
    forall j | 0 <= j < |s[k..e]|
      ensures s[k..e][j] in DELIMITERS
    {
      assert s[k..e][j] == t[j];
    }
    if e < |s| {
      assert s[e..][0] == t[n];
    }
  }

  /** One step of the splitter: the head before the first delimiter, then
      the pieces after the run of delimiters that follows it. */
  lemma SplitSentencesAt(s: string, k: nat, e: nat)
    requires k == FirstOf(s, DELIMITERS) < |s| && e == k + LeadingDelimiters(s[k..])
    ensures SplitSentences(s) == [s[..k]] + SplitSentences(s[e..])
  {
  }

  lemma {:induction false} LeadingDelimitersIs(s: string, n: nat)
    requires n <= |s|
    requires forall j :: 0 <= j < n ==> s[j] in DELIMITERS
    requires n < |s| ==> s[n] !in DELIMITERS
    ensures LeadingDelimiters(s) == n
  {
    if n > 0 {
      LeadingDelimitersIs(s[1..], n - 1);
    }
  }

  /** A delimiter-free head, a non-empty run of delimiters and a rest that
      does not start with a delimiter split into the head and then the pieces
      of the rest: the whole run, however long, is one separator. */
  lemma SplitSentencesOfRun(a: string, b: string, c: string)
    requires DelimiterFree(a)
    requires |b| > 0 && forall j :: 0 <= j < |b| ==> b[j] in DELIMITERS
    requires |c| == 0 || c[0] !in DELIMITERS
    ensures SplitSentences(a + b + c) == [a] + SplitSentences(c)
  {
    var s := a + b + c;
    ThreeParts(a, b, c);
    HeadBeforeRun(a, b + c);
    RunBeforeRest(b, c);
    SplitSentencesAt(s, |a|, |a| + |b|);
  }

  /** Where the three parts of `a + b + c` sit. */
  lemma ThreeParts<T>(a: seq<T>, b: seq<T>, c: seq<T>)
    ensures a + b + c == a + (b + c)
    ensures (a + b + c)[..|a|] == a
    ensures (a + b + c)[|a|..] == b + c
    ensures (a + b + c)[|a| + |b|..] == c
  {
  }

  /** The first delimiter of `a + t` is the first character of `t`. */
  lemma HeadBeforeRun(a: string, t: string)
    requires DelimiterFree(a) && |t| > 0 && t[0] in DELIMITERS
    ensures FirstOf(a + t, DELIMITERS) == |a|
  {
    forall j | 0 <= j < |a|
      ensures (a + t)[j] !in DELIMITERS
    {
      assert (a + t)[j] == a[j];
    }
    FirstOfIs(a + t, DELIMITERS, |a|);
  }

  /** The delimiter run at the front of `b + c` is exactly `b`. */
  lemma RunBeforeRest(b: string, c: string)
    requires forall j :: 0 <= j < |b| ==> b[j] in DELIMITERS
    requires |c| == 0 || c[0] !in DELIMITERS
    ensures LeadingDelimiters(b + c) == |b|
  {
    forall j | 0 <= j < |b|
      ensures (b + c)[j] in DELIMITERS
    {
      assert (b + c)[j] == b[j];
    }
    if |c| > 0 {
      assert (b + c)[|b|] == c[0];
    }
    LeadingDelimitersIs(b + c, |b|);
  }

  /** A run of two delimiters between two sentences, such as `。` followed by
      a line break, separates them as one delimiter does: the run is not an
      empty sentence. */
  lemma DoubleDelimiterSplits(a: string, c: string)
    requires DelimiterFree(a) && DelimiterFree(c) && |c| > 0
    ensures SplitSentences(a + "。\n" + c) == [a, c]
  {
    var b := "。\n";
    assert b[0] in DELIMITERS && b[1] in DELIMITERS;
    SplitSentencesOfRun(a, b, c);
    SplitSentencesOfPlainText(c);
  }


  /** Round trip: pieces without delimiters, joined by one delimiter, split
      back into the same pieces, provided no interior piece is empty (an
      empty interior piece would merge two delimiters into one run). */
  lemma {:induction false} SplitSentencesJoin(ps: seq<string>, d: char)
    requires |ps| >= 1 && d in DELIMITERS
    requires forall i :: 0 <= i < |ps| ==> DelimiterFree(ps[i])
    requires forall i :: 0 < i < |ps| - 1 ==> ps[i] != ""
    ensures SplitSentences(Text.Join([d], ps)) == ps
  {
    if |ps| == 1 {
      SplitSentencesOfPlainText(ps[0]);
    } else {
      var a, rest := ps[0], ps[1..];
      assert ps == [a] + rest;
      Text.JoinCons([d], a, rest);
      var c := Text.Join([d], rest);
      forall i | 0 <= i < |rest|
        ensures DelimiterFree(rest[i]) && (0 < i < |rest| - 1 ==> rest[i] != "")
      {
        assert rest[i] == ps[i + 1];
      }
      SplitSentencesJoin(rest, d);
      Text.JoinStartsWithFirst([d], rest);
      if |rest| > 1 {
        assert rest[0] == ps[1] != "";
      }
      assert |c| == 0 || c[0] !in DELIMITERS by {
        if |rest[0]| > 0 {
          assert c[0] == rest[0][0];
        } else {
          assert c == rest[0];
        }
      }
      assert a + [d] + c == Text.Join([d], ps);
      SplitSentencesOfRun(a, [d], c);
    }
  }

  lemma ConcatCons(head: string, rest: seq<string>)
    ensures Concat([head] + rest) == head + Concat(rest)
  {
    assert ([head] + rest)[1..] == rest;
  }

  /** Text without delimiters is synthesized in one piece. */
  lemma SplitSentencesOfPlainText(s: string)
    requires DelimiterFree(s)
    ensures SplitSentences(s) == [s]
  {
    FirstOfIs(s, DELIMITERS, |s|);
  }

  /** A conversation recorded as finished whose file is in its bucket is
      downloadable. */
  lemma DownloadOfFinished(id: string, conv: Conversation, store: Store, url: string)
    requires id != "" && conv.ttsStatus == Some(COMPLETED) && conv.ttsFileUrl == Some(url) && url != ""
    requires Fetch(store, id, KeyFromUrl(url)).Some?
    ensures DownloadTts(Some(id), Some(conv), store)
            == Ok(AudioFile(Fetch(store, id, KeyFromUrl(url)).value, ContentType(FilenameFromUrl(url)), FilenameFromUrl(url)))
  {
  }

  // ---------------------------------------------------------------------------
  // Playback with fallback (`/tts`)
  // ---------------------------------------------------------------------------

  /** `tenants[0]`; `ttsId` is "" when no default speech model is set. */
  datatype Tenant = Tenant(ttsId: string)

  datatype PlaybackError = TenantNotFound | NoDefaultTtsModel

  datatype Playback =
    | Serve(audio: Bytes, contentType: Option<string>)  // a stored file
    | Synthesize(segments: seq<string>)                 // live synthesis, one call per segment

  /** A file recorded as finished. */
  predicate Finished(url: Option<string>, status: Option<string>) {
    Truthy(url) && status == Some(COMPLETED)
  }

  /** The stored file a URL points to, in the bucket named after the conversation. */
  function StoredAudio(bucket: string, url: string, store: Store): (r: Option<Playback>)
    ensures r.Some? ==> r.value.Serve? && Some(r.value.audio) == Fetch(store, bucket, KeyFromUrl(url))
    ensures r.None? <==> Fetch(store, bucket, KeyFromUrl(url)).None?
  {
    var name := FilenameFromUrl(url);
    match Fetch(store, bucket, KEY_PREFIX + name)
    case Some(blob) => Some(Serve(blob, ContentType(name)))
    case None => None
  }

  /** First tier: the conversation-level file. */
  function ConversationAudio(convId: Option<string>, conv: Option<Conversation>, store: Store): Option<Playback> {
    if Truthy(convId) && conv.Some? && Finished(conv.value.ttsFileUrl, conv.value.ttsStatus)
    then StoredAudio(convId.value, conv.value.ttsFileUrl.value, store)
    else None
  }

  /** The stored file of a message recorded as finished, if it can be fetched. */
  function MessageFile(bucket: string, m: Message, store: Store): Option<Playback> {
    if Finished(m.ttsFileUrl, m.ttsStatus) then StoredAudio(bucket, m.ttsFileUrl.value, store) else None
  }

  /** The first present entry of `xs`, if any. */
  function FirstPresent<T>(xs: seq<Option<T>>): (r: Option<T>)
    ensures r.Some? <==> exists j :: 0 <= j < |xs| && xs[j].Some?
    ensures forall j :: 0 <= j < |xs| && xs[j].Some? && (forall t :: 0 <= t < j ==> xs[t].None?) ==> r == xs[j]
    ensures r.Some? ==> exists j :: 0 <= j < |xs| && r == xs[j]
  {
    if |xs| == 0 then None
    else if xs[0].Some? then xs[0]
    else
      var r := FirstPresent(xs[1..]);
      assert forall j :: 1 <= j < |xs| ==> xs[j] == xs[1..][j - 1];
      r
  }

  /** The servable file of each message, in order. */
  function MessageFiles(bucket: string, ms: seq<Message>, store: Store): (fs: seq<Option<Playback>>)
    ensures |fs| == |ms|
    ensures forall i :: 0 <= i < |ms| ==> fs[i] == MessageFile(bucket, ms[i], store)
  {
    seq(|ms|, i requires 0 <= i < |ms| => MessageFile(bucket, ms[i], store))
  }

  /** Second tier: the first finished message whose file can be fetched; a
      message whose fetch fails is skipped. */
  function MessageAudio(bucket: string, ms: seq<Message>, store: Store): (r: Option<Playback>)
    ensures r.Some? <==> exists j :: 0 <= j < |ms| && MessageFile(bucket, ms[j], store).Some?
    ensures r.Some? ==> exists j :: 0 <= j < |ms| && r == MessageFile(bucket, ms[j], store)
    ensures forall j :: 0 <= j < |ms| && MessageFile(bucket, ms[j], store).Some?
                        && (forall t :: 0 <= t < j ==> MessageFile(bucket, ms[t], store).None?)
                        ==> r == MessageFile(bucket, ms[j], store)
  {
    FirstPresent(MessageFiles(bucket, ms, store))
  }

  /** `tts`: the stored conversation-level file if there is one; otherwise
      live synthesis when the tenant has a speech model; otherwise a stored
      message-level file; otherwise the "no model" error. */
  function Tts(text: string, convId: Option<string>, conv: Option<Conversation>, tenant: Option<Tenant>,
               store: Store): (r: Result<Playback, PlaybackError>)
    ensures ConversationAudio(convId, conv, store).Some? ==> r == Ok(ConversationAudio(convId, conv, store).value)
    ensures ConversationAudio(convId, conv, store).None? && tenant.None? ==> r == Err(TenantNotFound)
    ensures ConversationAudio(convId, conv, store).None? && tenant.Some? && tenant.value.ttsId != ""
            ==> r == Ok(Synthesize(SplitSentences(text)))
    ensures ConversationAudio(convId, conv, store).None? && tenant == Some(Tenant("")) && Truthy(convId)
            && conv.Some? && MessageAudio(convId.value, conv.value.messages, store).Some?
            ==> r == Ok(MessageAudio(convId.value, conv.value.messages, store).value)
    ensures r.Ok? && r.value.Serve? ==>
      || ConversationAudio(convId, conv, store) == Some(r.value)
      || (Truthy(convId) && conv.Some? && tenant.Some? && tenant.value.ttsId == ""
          && MessageAudio(convId.value, conv.value.messages, store) == Some(r.value))
  {
    match ConversationAudio(convId, conv, store)
    case Some(p) => Ok(p)
    case None =>
      if tenant.None? then Err(TenantNotFound)
      else if tenant.value.ttsId != "" then Ok(Synthesize(SplitSentences(text)))
      else if Truthy(convId) && conv.Some? then
        match MessageAudio(convId.value, conv.value.messages, store)
        case Some(p) => Ok(p)
        case None => Err(NoDefaultTtsModel)
      else Err(NoDefaultTtsModel)
  }

  /** With no stored file at either level and no speech model, playback
      reports that no default model is set. */
  lemma NothingStoredNoModel(text: string, convId: Option<string>, conv: Option<Conversation>, store: Store)
    requires ConversationAudio(convId, conv, store).None?
    requires Truthy(convId) && conv.Some? ==> MessageAudio(convId.value, conv.value.messages, store).None?
    ensures Tts(text, convId, conv, Some(Tenant("")), store) == Err(NoDefaultTtsModel)
  {
  }

  // ---------------------------------------------------------------------------
  // Download (`/tts/down`)
  // ---------------------------------------------------------------------------

  datatype DownloadError =
    | MissingConversationId  // "Missing conversation_id"
    | ConversationNotFound   // "Conversation not found!"
    | NoAudioFile            // "No TTS audio file available"
    | NotCompleted           // "TTS task is not completed"
    | StorageFailed          // "Failed to download audio file from MinIO"

  /** The served attachment: bytes, `Content-Type` when the name has an
      extension, and the `Content-Disposition` file name. */
  datatype AudioFile = AudioFile(audio: Bytes, contentType: Option<string>, filename: string)

  /** `download_tts`: the conversation-level file only, after its guards. */
  function DownloadTts(convId: Option<string>, conv: Option<Conversation>, store: Store)
    : (r: Result<AudioFile, DownloadError>)
    ensures !Truthy(convId) ==> r == Err(MissingConversationId)
    ensures Truthy(convId) && conv.None? ==> r == Err(ConversationNotFound)
    ensures Truthy(convId) && conv.Some? && !Truthy(conv.value.ttsFileUrl) ==> r == Err(NoAudioFile)
    ensures Truthy(convId) && conv.Some? && Truthy(conv.value.ttsFileUrl) && conv.value.ttsStatus != Some(COMPLETED)
            ==> r == Err(NotCompleted)
    ensures (Truthy(convId) && conv.Some? && Finished(conv.value.ttsFileUrl, conv.value.ttsStatus)
             && Fetch(store, convId.value, KeyFromUrl(conv.value.ttsFileUrl.value)).None?)
            ==> r == Err(StorageFailed)
    ensures r.Ok? <==> Truthy(convId) && conv.Some? && Finished(conv.value.ttsFileUrl, conv.value.ttsStatus)
                       && Fetch(store, convId.value, KeyFromUrl(conv.value.ttsFileUrl.value)).Some?
    ensures r.Ok? ==> Some(r.value.audio) == Fetch(store, convId.value, KeyFromUrl(conv.value.ttsFileUrl.value))
                      && r.value.filename == FilenameFromUrl(conv.value.ttsFileUrl.value)
                      && r.value.contentType == ContentType(r.value.filename)
  {
    if !Truthy(convId) then Err(MissingConversationId)
    else if conv.None? then Err(ConversationNotFound)
    else if !Truthy(conv.value.ttsFileUrl) then Err(NoAudioFile)
    else if conv.value.ttsStatus != Some(COMPLETED) then Err(NotCompleted)
    else
      var name := FilenameFromUrl(conv.value.ttsFileUrl.value);
      match Fetch(store, convId.value, KEY_PREFIX + name)
      case None => Err(StorageFailed)
      case Some(blob) => Ok(AudioFile(blob, ContentType(name), name))
  }

  /** The whole arc: a task submitted for a conversation, its completed
      callback with the audio stored and presigned under the conversation's
      bucket, and then the download returns exactly the stored audio as
      `audio/mp3` under the generated name. */
  lemma CompletedAudioIsDownloadable(before: seq<Conversation>, k: nat, reply: TtsTasks.SubmitReply,
                                     audio: Bytes, hex: string, host: string, query: string, store: Store)
    requires k < |before| && before[k].id != ""
    requires TtsTasks.GenerateTts(before[k], reply).Ok?
    requires var tid := TtsTasks.GenerateTts(before[k], reply).value.0;
             forall i :: 0 <= i < k ==> before[i].ttsTaskId != Some(tid)
    requires |audio| > 0
    requires forall j :: 0 <= j < |host| ==> host[j] !in {'/', '?', '#'}
    requires '?' !in before[k].id && '#' !in before[k].id && '#' !in query
    requires var tid := TtsTasks.GenerateTts(before[k], reply).value.0;
             '/' !in tid && '?' !in tid && '#' !in tid && ';' !in tid
             && '/' !in hex && '?' !in hex && '#' !in hex && ';' !in hex
    ensures var (tid, submitted) := TtsTasks.GenerateTts(before[k], reply).value;
      var url := "http://" + host + "/" + before[k].id + "/" + StoredKey(tid, hex) + "?" + query;
      var o := TtsTasks.Callback(before[k := submitted], TtsTasks.CallbackRequest(Some(tid), Some(COMPLETED), None),
                                 TtsTasks.DownloadResponse(200, audio), hex, TtsTasks.Presigned(url), true);
      && o.saved.Some? && o.stored.Some?
      && DownloadTts(Some(before[k].id), o.saved,
                     store[(o.stored.value.bucket, o.stored.value.key) := o.stored.value.audio])
         == Ok(AudioFile(audio, Some("audio/mp3"), StoredFilename(tid, hex)))
  {
    var (tid, submitted) := TtsTasks.GenerateTts(before[k], reply).value;
    var id := before[k].id;
    var url := "http://" + host + "/" + id + "/" + StoredKey(tid, hex) + "?" + query;
    TtsTasks.SubmitThenComplete(before, k, reply, audio, hex, url);
    var o := TtsTasks.Callback(before[k := submitted], TtsTasks.CallbackRequest(Some(tid), Some(COMPLETED), None),
                               TtsTasks.DownloadResponse(200, audio), hex, TtsTasks.Presigned(url), true);
    var saved := o.saved.value;
    assert saved.ttsFileUrl == Some(url) && saved.ttsStatus == Some(COMPLETED);
    assert o.stored.value == TtsTasks.StoredObject(id, StoredKey(tid, hex), audio);
    StoredKeyRoundTrip(host, id, tid, hex, query);
    StoredFileContentType(tid, hex);
    assert FilenameFromUrl(url) == StoredFilename(tid, hex);
    var after := store[(id, StoredKey(tid, hex)) := audio];
    assert Fetch(after, id, KeyFromUrl(url)) == Some(audio);
    DownloadOfFinished(id, saved, after, url);
  }
}

=== FILE: records.dfy ===
/** The conversation record as the chat handlers read and write it: a list of
    message dictionaries, a list of reference blocks, and optional
    conversation-level text-to-speech fields. */
module Records {
  import opened Wrappers

  const SYSTEM := "system"
  const ASSISTANT := "assistant"
  const COMPLETED := "completed"
  const PENDING := "pending"

  /** One message dictionary. Every optional field but `id` is `None` when
      the key is absent or null: the handlers read them with `.get`, which
      does not tell the two apart. The id is read with the default `""` as
      well, which does, so it keeps the distinction. The per-message task id
      is stored under two historical key names, and both must be recognised. */
  datatype Message = Message(
    role: string,
    content: string,
    id: Slot<string>,
    thumbup: Option<bool>,
    feedback: Option<string>,
    ttsTaskIdSnake: Option<string>,  // key `tts_task_id`
    ttsTaskIdCamel: Option<string>,  // key `ttsTaskId`
    ttsStatus: Option<string>,
    ttsFileUrl: Option<string>)

  /** `msg.get("id", "")`: "" for a missing id, `None` for a null one. */
  function IdOrEmpty(m: Message): (r: Option<string>)
    ensures r == Some("") <==> m.id == Absent || m.id == Present("")
    ensures r.None? <==> m.id.Null?
  {
    match m.id
    case Absent => Some("")
    case Null => None
    case Present(s) => Some(s)
  }

  /** `msg.get("id")`: `None` for a missing or null id. */
  function IdOrNone(m: Message): (r: Option<string>)
    ensures r.Some? <==> m.id.Present?
    ensures r.Some? ==> r.value == m.id.value
  {
    if m.id.Present? then Some(m.id.value) else None
  }

  /** The message carries `taskId` under either key name. */
  predicate CarriesTask(m: Message, taskId: string) {
    m.ttsTaskIdSnake == Some(taskId) || m.ttsTaskIdCamel == Some(taskId)
  }

  /** One entry of the reference list: a falsy placeholder (None, `{}` or
      `[]`), or a block of retrieved chunks and document aggregates. */
  datatype Reference = NoReference | Block(chunks: seq<string>, docAggs: seq<string>)

  /** The block appended for the answer a completion is about to produce. */
  const EMPTY_BLOCK := Block([], [])

  datatype Conversation = Conversation(
    id: string,
    dialogId: string,
    name: string,
    messages: seq<Message>,
    reference: seq<Reference>,
    ttsTaskId: Option<string>,
    ttsStatus: Option<string>,
    ttsFileUrl: Option<string>)

  /** Some message of the conversation carries `taskId`. */
  predicate HasTaskMessage(c: Conversation, taskId: string) {
    exists j :: 0 <= j < |c.messages| && CarriesTask(c.messages[j], taskId)
  }

  /** Blob bytes. */
  type Bytes = seq<bv8>

  /** The blob store: bucket and object key to stored bytes. A key that is
      absent stands for `get` returning nothing or raising; the handlers treat
      both alike. */
  type Store = map<(string, string), Bytes>

  /** `STORAGE_IMPL.get(bucket, key)` when the result is truthy. */
  function Fetch(store: Store, bucket: string, key: string): Option<Bytes> {
    if (bucket, key) in store && |store[(bucket, key)]| > 0 then Some(store[(bucket, key)]) else None
  }
}

=== FILE: related_questions.dfy ===
/** The related-questions handler's parser: the model's answer is split into
    lines, and the lines numbered with a single digit (`"3. ..."`) are kept
    without their number. */
module RelatedQuestions {
  import opened Text

  /** `re.match(r"^[0-9]\. ", line)`. */
  predicate IsNumbered(line: string) {
    |line| >= 3 && '0' <= line[0] <= '9' && line[1] == '.' && line[2] == ' '
  }

  /** `q` is the text after the number of some numbered line. */
  predicate QuestionOf(q: string, lines: seq<string>) {
    exists j :: 0 <= j < |lines| && IsNumbered(lines[j]) && q == lines[j][3..]
  }

  /** The numbered lines, each with its three-character number removed. */
  function NumberedLines(lines: seq<string>): (qs: seq<string>)
    ensures |qs| <= |lines|
    ensures forall i :: 0 <= i < |qs| ==> QuestionOf(qs[i], lines)
    ensures (forall j :: 0 <= j < |lines| ==> '\n' !in lines[j]) ==> forall i :: 0 <= i < |qs| ==> '\n' !in qs[i]
  {
    if |lines| == 0 then []
    else
      var rest := NumberedLines(lines[1..]);
      assert forall j :: 1 <= j < |lines| ==> lines[j] == lines[1..][j - 1];
      if IsNumbered(lines[0]) then [lines[0][3..]] + rest else rest
  }

  /** The filter works line by line: the questions of a concatenation are the
      questions of each part, in order. */
  lemma {:induction false} NumberedLinesAppend(a: seq<string>, b: seq<string>)
    ensures NumberedLines(a + b) == NumberedLines(a) + NumberedLines(b)
  {
    if |a| > 0 {
      assert (a + b)[1..] == a[1..] + b;
      assert (a + b)[0] == a[0];
      NumberedLinesAppend(a[1..], b);
    } else {
      assert a + b == b;
    }
  }

  /** A single line yields its text after the number when it is numbered,
      and nothing otherwise. */
  lemma NumberedLinesSingle(line: string)
    ensures NumberedLines([line]) == if IsNumbered(line) then [line[3..]] else []
  {
    assert [line][1..] == [];
  }

  /** The questions extracted from the model's answer: each is the text of a
      numbered line of the answer after its number. */
  function ParseQuestions(answer: string): (qs: seq<string>)
    ensures forall i :: 0 <= i < |qs| ==> '\n' !in qs[i]
    ensures forall i :: 0 <= i < |qs| ==> QuestionOf(qs[i], Split(answer, '\n'))
  {
    NumberedLines(Split(answer, '\n'))
  }

  /** Question `i` numbered `i + 1`, as the prompt asks the model to write it. */
  function Numbered(qs: seq<string>): (lines: seq<string>)
    requires |qs| <= 9
    ensures |lines| == |qs|
    ensures forall i :: 0 <= i < |qs| ==> lines[i] == [('1' as int + i) as char] + ". " + qs[i]
  {
    seq(|qs|, i requires 0 <= i < |qs| => [('1' as int + i) as char] + ". " + qs[i])
  }

  lemma {:induction false} NumberedLinesAll(lines: seq<string>)
    requires forall i :: 0 <= i < |lines| ==> IsNumbered(lines[i])
    ensures |NumberedLines(lines)| == |lines|
    ensures forall i :: 0 <= i < |lines| ==> IsNumbered(lines[i]) && NumberedLines(lines)[i] == lines[i][3..]
  {
    if |lines| > 0 {
      NumberedLinesAll(lines[1..]);
      assert forall i :: 1 <= i < |lines| ==> lines[i] == lines[1..][i - 1];
    }
  }

  /** Numbering questions and stripping the numbers again gives them back. */
  lemma NumberedOfNumbered(qs: seq<string>)
    requires |qs| <= 9
    requires forall i :: 0 <= i < |qs| ==> '\n' !in qs[i]
    ensures NumberedLines(Numbered(qs)) == qs
    ensures forall i :: 0 <= i < |qs| ==> '\n' !in Numbered(qs)[i]
  {
    var lines := Numbered(qs);
    forall i | 0 <= i < |lines|
      ensures '\n' !in lines[i] && IsNumbered(lines[i]) && lines[i][3..] == qs[i]
    {
      assert lines[i] == [('1' as int + i) as char] + ". " + qs[i];
      assert forall t :: 0 <= t < |qs[i]| ==> lines[i][t + 3] == qs[i][t];
    }
    NumberedLinesAll(lines);
    assert NumberedLines(lines) == qs;
  }

  /** Round trip: up to nine single-line questions, numbered one per line,
      are parsed back exactly. */
  lemma ParseNumberedRoundTrip(qs: seq<string>)
    requires 1 <= |qs| <= 9
    requires forall i :: 0 <= i < |qs| ==> '\n' !in qs[i]
    ensures ParseQuestions(Join("\n", Numbered(qs))) == qs
  {
    NumberedOfNumbered(qs);
    SplitJoin(Numbered(qs), '\n');
  }

  /** An unnumbered first line, such as a heading the model writes before
      its list, is skipped, and the numbered questions after it come back in
      order. */
  lemma ParseAfterPreamble(preamble: string, qs: seq<string>)
    requires '\n' !in preamble && !IsNumbered(preamble)
    requires 1 <= |qs| <= 9
    requires forall i :: 0 <= i < |qs| ==> '\n' !in qs[i]
    ensures ParseQuestions(preamble + "\n" + Join("\n", Numbered(qs))) == qs
  {
    var body := Numbered(qs);
    NumberedOfNumbered(qs);
    JoinCons("\n", preamble, body);
    var lines := [preamble] + body;
    forall i | 0 <= i < |lines|
      ensures '\n' !in lines[i]
    {
      if i > 0 {
        assert lines[i] == body[i - 1];
      }
    }
    SplitJoin(lines, '\n');
    NumberedLinesAppend([preamble], body);
    NumberedLinesSingle(preamble);
  }

  /** A line numbered with two digits is not recognised. */
  lemma TwoDigitNumberIsDropped()
    ensures ParseQuestions("10. next question") == []
  {
    var line := "10. next question";
    assert '\n' !in line;
    SplitJoin([line], '\n');
    assert Join("\n", [line]) == line;
    assert !IsNumbered(line);
  }
}

=== FILE: speech_client.dfy ===
/** The clients of the two speech services: a synthesis (TTS) client that
    submits a task and polls for its audio URL, and a recognition (ASR) client
    that submits an audio file and reads back its transcript. Every HTTP
    exchange is an input; the polls made before the deadline are a finite
    sequence, so time and sleeping are not modelled. */
module SpeechClient {
  import opened Wrappers
  import opened Text
  import Records
  import TtsTasks

  const TTS_DEFAULT_BASE := "http://127.0.0.1:8001"
  const ASR_DEFAULT_BASE := "http://127.0.0.1:8002"

  /** An HTTP exchange: an exception from the transport, or a status with a
      body that decoded as JSON (`Some`) or did not (`None`). */
  datatype Reply<+B> = Raised | Response(status: int, body: Option<B>)

  /** A form post: the endpoint and its form fields. */
  datatype Request = Request(url: string, form: map<string, string>)

  // ---------------------------------------------------------------------------
  // Base URL and submission
  // ---------------------------------------------------------------------------

  /** `base_url.rstrip('/')`: both clients keep their base URL without
      trailing slashes, so `base + "/endpoint"` has a single slash. */
  function NormaliseBaseUrl(base: string): (r: string)
    ensures r <= base
    ensures |r| == 0 || r[|r| - 1] != '/'
    ensures forall i :: |r| <= i < |base| ==> base[i] == '/'
  {
    StripTrailing(base, '/')
  }

  /** Trailing slashes in the configured base URL make no difference. */
  lemma {:induction false} TrailingSlashesIgnored(base: string, n: nat)
    ensures NormaliseBaseUrl(base + seq(n, _ => '/')) == NormaliseBaseUrl(base)
  {
    if n > 0 {
      var slashes := seq(n, _ => '/');
      assert (base + slashes)[..|base + slashes| - 1] == base + seq(n - 1, _ => '/');
      TrailingSlashesIgnored(base, n - 1);
    } else {
      assert base + seq(n, _ => '/') == base;
    }
  }

  lemma NormaliseBaseUrlIdempotent(base: string)
    ensures NormaliseBaseUrl(NormaliseBaseUrl(base)) == NormaliseBaseUrl(base)
  {
    StripTrailingIdempotent(base, '/');
  }

  lemma DefaultBasesAreNormal()
    ensures NormaliseBaseUrl(TTS_DEFAULT_BASE) == TTS_DEFAULT_BASE
    ensures NormaliseBaseUrl(ASR_DEFAULT_BASE) == ASR_DEFAULT_BASE
  {
  }

  /** The task id a submission reply yields: the reply's `task_id` (which may
      itself be absent) when the status is 200 and `code` is 0; nothing for
      any other status, code, undecodable body or transport exception. */
  function AcceptSubmission(reply: TtsTasks.SubmitReply): (tid: Option<string>)
    ensures tid.Some? ==> reply.SubmitResponse? && reply.status == 200 && reply.body.Some?
                          && reply.body.value.code == Some(0) && tid == reply.body.value.taskId
    ensures reply.SubmitResponse? && reply.status == 200 && reply.body.Some? && reply.body.value.code == Some(0)
            ==> tid == reply.body.value.taskId
  {
    match reply
    case SubmitRaised => None
    case SubmitResponse(status, body) =>
      if status == 200 && body.Some? && body.value.code == Some(0) then body.value.taskId else None
  }

  /** The client and the `/tts/generate` handler agree on which replies carry
      a usable task id, and on the id. */
  lemma AcceptSubmissionAgreesWithGenerate(c: Records.Conversation, reply: TtsTasks.SubmitReply)
    ensures Truthy(AcceptSubmission(reply)) <==> TtsTasks.GenerateTts(c, reply).Ok?
    ensures TtsTasks.GenerateTts(c, reply).Ok? ==> AcceptSubmission(reply) == Some(TtsTasks.GenerateTts(c, reply).value.0)
  {
  }

  /** The synthesis submission posted by `submit_tts_task`. */
  function TtsSubmitRequest(base: string, text: string, languageId: string): (req: Request)
    ensures req.url == base + "/submit_tts_task"
    ensures req.form.Keys == {"text", "language_id"}
    ensures req.form["text"] == text && req.form["language_id"] == languageId
  {
    Request(base + "/submit_tts_task", map["text" := text, "language_id" := languageId])
  }

  /** The recognition submission posted by `submit_asr_task`; the callback URL
      is sent only when it is a non-empty string. */
  function AsrSubmitRequest(base: string, mode: string, callbackUrl: Option<string>): (req: Request)
    ensures req.url == base + "/submit_task"
    ensures "recognition_mode" in req.form && req.form["recognition_mode"] == mode
    ensures "callback_url" in req.form <==> Truthy(callbackUrl)
    ensures Truthy(callbackUrl) ==> req.form["callback_url"] == callbackUrl.value
    ensures req.form.Keys <= {"recognition_mode", "callback_url"}
  {
    var form := map["recognition_mode" := mode];
    Request(base + "/submit_task", if Truthy(callbackUrl) then form["callback_url" := callbackUrl.value] else form)
  }

  /** `submit_asr_task`: when the audio file cannot be opened nothing is
      posted and no task id results; otherwise the form is posted and the
      reply decides the task id as for synthesis. */
  function SubmitAsr(base: string, mode: string, callbackUrl: Option<string>, fileOpened: bool,
                     reply: TtsTasks.SubmitReply): (r: (Option<Request>, Option<string>))
    ensures !fileOpened ==> r.0.None? && r.1.None?
    ensures fileOpened ==> r.0 == Some(AsrSubmitRequest(base, mode, callbackUrl))
    ensures r.1.Some? ==> fileOpened && r.1 == AcceptSubmission(reply)
    ensures fileOpened ==> r.1 == AcceptSubmission(reply)
  {
    if !fileOpened then (None, None)
    else (Some(AsrSubmitRequest(base, mode, callbackUrl)), AcceptSubmission(reply))
  }

  // ---------------------------------------------------------------------------
  // Polling for synthesised audio (`get_tts_result`)
  // ---------------------------------------------------------------------------

  /** The result request made once the status is "completed": an exception
      (transport, JSON decoding, or a `result` that is null), or a status with
      the `result.output_url` it carried. */
  datatype ResultFetch = FetchRaised | FetchReply(status: int, outputUrl: Option<string>)

  /** One status poll: an exception, or a status with the decoded `status`
      field and the result request that follows it when that field is
      "completed". */
  datatype Poll = PollRaised | StatusReply(status: int, state: Option<string>, fetch: ResultFetch)

  /** What one poll decides: stop with a value, or sleep and poll again. */
  datatype Step = Done(url: Option<string>) | Wait

  /** One iteration of the polling loop: an exception ends the loop with
      nothing; a 200 status of "completed" ends it with the served URL when
      the result request returns 200 with a non-empty `output_url`, ends it
      with nothing when that request raises, and otherwise sleeps; "failed"
      ends it with nothing; anything else sleeps. */
  function Decide(base: string, p: Poll): (r: Step)
    ensures r.Done? && r.url.Some? <==>
      (p.StatusReply? && p.status == 200 && p.state == Some("completed")
       && p.fetch.FetchReply? && p.fetch.status == 200 && Truthy(p.fetch.outputUrl))
    ensures r.Done? && r.url.Some? ==> r.url.value == base + p.fetch.outputUrl.value
    ensures r == Done(None) <==>
      (|| p.PollRaised?
       || (p.StatusReply? && p.status == 200 && p.state == Some("completed") && p.fetch.FetchRaised?)
       || (p.StatusReply? && p.status == 200 && p.state == Some("failed")))
    ensures p.StatusReply? && p.status != 200 ==> r == Wait
  {
    match p
    case PollRaised => Done(None)
    case StatusReply(status, state, fetch) =>
      if status != 200 then Wait
      else if state == Some("completed") then
        match fetch
        case FetchRaised => Done(None)
        case FetchReply(rs, out) => if rs == 200 && Truthy(out) then Done(Some(base + out.value)) else Wait
      else if state == Some("failed") then Done(None)
      else Wait
  }

  /** The value of the polling loop over the polls made before the deadline:
      the first poll that decides, or nothing once the deadline passes. */
  function PollOutcome(base: string, polls: seq<Poll>): (url: Option<string>)
    ensures url.Some? ==> exists k :: 0 <= k < |polls| && Decide(base, polls[k]) == Done(url)
  {
    if |polls| == 0 then None
    else match Decide(base, polls[0])
      case Done(u) => u
      case Wait =>
        var rest := PollOutcome(base, polls[1..]);
        assert rest.Some? ==> exists k :: 1 <= k < |polls| && Decide(base, polls[k]) == Done(rest) by {
          if rest.Some? {
            var k :| 0 <= k < |polls[1..]| && Decide(base, polls[1..][k]) == Done(rest);
            assert polls[k + 1] == polls[1..][k];
          }
        }
        rest
  }

  /** `get_tts_result` as a loop over the polls. */
  method PollTtsResult(base: string, polls: seq<Poll>) returns (url: Option<string>)
    ensures url == PollOutcome(base, polls)
  {
    var i := 0;
    while i < |polls|
      invariant 0 <= i <= |polls|
      invariant PollOutcome(base, polls) == PollOutcome(base, polls[i..])
    {
      assert polls[i..][1..] == polls[i + 1..];
      var step := Decide(base, polls[i]);
      if step.Done? {
        return step.url;
      }
      i := i + 1;
    }
    return None;
  }

  /** The loop's value is the first deciding poll's, after only waiting
      polls; when no poll decides, it is nothing. */
  lemma {:induction false} PollOutcomeIsFirstDecision(base: string, polls: seq<Poll>, k: nat)
    requires k < |polls| && Decide(base, polls[k]).Done?
    requires forall j :: 0 <= j < k ==> Decide(base, polls[j]) == Wait
    ensures PollOutcome(base, polls) == Decide(base, polls[k]).url
  {
    if k > 0 {
      assert forall j :: 0 <= j < k - 1 ==> polls[1..][j] == polls[j + 1];
      PollOutcomeIsFirstDecision(base, polls[1..], k - 1);
    }
  }

  lemma {:induction false} PollOutcomeTimesOut(base: string, polls: seq<Poll>)
    requires forall j :: 0 <= j < |polls| ==> Decide(base, polls[j]) == Wait
    ensures PollOutcome(base, polls) == None
  {
    if |polls| > 0 {
      assert forall j :: 0 <= j < |polls| - 1 ==> polls[1..][j] == polls[j + 1];
      PollOutcomeTimesOut(base, polls[1..]);
    }
  }

  /** Any URL the loop returns is the base URL followed by a non-empty
      `output_url` from a completed status and a 200 result reply. */
  lemma PollOutcomeIsServedUrl(base: string, polls: seq<Poll>)
    requires PollOutcome(base, polls).Some?
    ensures exists k :: (0 <= k < |polls| && polls[k].StatusReply? && polls[k].status == 200
                         && polls[k].state == Some("completed") && polls[k].fetch.FetchReply?
                         && polls[k].fetch.status == 200 && Truthy(polls[k].fetch.outputUrl)
                         && PollOutcome(base, polls) == Some(base + polls[k].fetch.outputUrl.value))
  {
    var k :| 0 <= k < |polls| && Decide(base, polls[k]) == Done(PollOutcome(base, polls));
  }

  /** A completed status whose result carries no URL does not end the loop:
      polling goes on to the next poll. */
  lemma CompletedWithoutUrlKeepsPolling(base: string, p: Poll, rest: seq<Poll>)
    requires p.StatusReply? && p.status == 200 && p.state == Some("completed")
    requires p.fetch.FetchReply? && !Truthy(p.fetch.outputUrl)
    ensures PollOutcome(base, [p] + rest) == PollOutcome(base, rest)
  {
    assert ([p] + rest)[1..] == rest;
  }

  /** `synthesize_speech`: polling happens only for a non-empty task id. */
  function Synthesize(base: string, submitReply: TtsTasks.SubmitReply, polls: seq<Poll>): (url: Option<string>)
    ensures !Truthy(AcceptSubmission(submitReply)) ==> url.None?
    ensures Truthy(AcceptSubmission(submitReply)) ==> url == PollOutcome(base, polls)
  {
    var tid := AcceptSubmission(submitReply);
    if Truthy(tid) then PollOutcome(base, polls) else None
  }

  // ---------------------------------------------------------------------------
  // Recognition result (`get_asr_result`)
  // ---------------------------------------------------------------------------

  /** A field of a dialogue item as an f-string renders it: a missing key
      becomes the default "", a JSON null becomes "None". */
  datatype Field = Missing | NullField | Str(s: string)

  function Render(f: Field): (r: string)
    ensures f.Str? ==> r == f.s
    ensures f.Missing? ==> r == ""
    ensures f.NullField? ==> r == "None"
  {
    match f
    case Missing => ""
    case NullField => "None"
    case Str(s) => s
  }

  datatype DialogueItem = DialogueItem(speaker: Field, text: Field)

  /** The `result` object: its `dialogue` list and its `text`. */
  datatype AsrData = AsrData(dialogue: Slot<seq<DialogueItem>>, text: Option<string>)

  datatype AsrBody = AsrBody(status: Option<string>, mode: Option<string>, result: Slot<AsrData>)

  /** One line of the meeting transcript: `"<speaker>: <text>"`. */
  function DialogueLines(items: seq<DialogueItem>): (lines: seq<string>)
    ensures |lines| == |items|
    ensures forall i :: 0 <= i < |items| ==> lines[i] == Render(items[i].speaker) + ": " + Render(items[i].text)
  {
    seq(|items|, i requires 0 <= i < |items| => Render(items[i].speaker) + ": " + Render(items[i].text))
  }

  /** A 200 reply that decoded and reports the task `completed`. */
  predicate Completed(reply: Reply<AsrBody>) {
    reply.Response? && reply.status == 200 && reply.body.Some? && reply.body.value.status == Some("completed")
  }

  /** The transcript of a completed task: the dialogue lines joined by
      newlines in meeting mode, the plain `text` otherwise. A missing
      `result` reads as an empty object; a null `result`, or a null
      `dialogue` in meeting mode, raises and yields nothing. */
  function GetAsrResult(reply: Reply<AsrBody>): (r: Option<string>)
    ensures r.Some? ==> reply.Response? && reply.status == 200 && reply.body.Some?
                        && reply.body.value.status == Some("completed")
    ensures r.Some? && reply.body.value.mode != Some("meeting") ==>
      reply.body.value.result.Present? && r == reply.body.value.result.value.text
    ensures Completed(reply) && reply.body.value.mode != Some("meeting") ==>
      r == (if reply.body.value.result.Present? then reply.body.value.result.value.text else None)
    ensures Completed(reply) && reply.body.value.mode == Some("meeting") ==>
      r == match reply.body.value.result
           case Absent => Some("")
           case Null => None
           case Present(d) =>
             match d.dialogue
             case Absent => Some("")
             case Null => None
             case Present(items) => Some(Join("\n", DialogueLines(items)))
  {
    match reply
    case Raised => None
    case Response(status, body) =>
      if status != 200 || body.None? || body.value.status != Some("completed") then None
      else
        var data := match body.value.result
          case Absent => Some(AsrData(Absent, None))
          case Null => None
          case Present(d) => Some(d);
        if data.None? then None
        else if body.value.mode == Some("meeting") then
          match data.value.dialogue
          case Absent => Some("")
          case Null => None
          case Present(items) => Some(Join("\n", DialogueLines(items)))
        else data.value.text
  }

  lemma MeetingTranscript(reply: Reply<AsrBody>, items: seq<DialogueItem>)
    requires Completed(reply) && reply.body.value.mode == Some("meeting")
    requires reply.body.value.result.Present? && reply.body.value.result.value.dialogue == Present(items)
    ensures GetAsrResult(reply) == Some(Join("\n", DialogueLines(items)))
  {
  }

  /** A meeting transcript splits back into one line per dialogue item when
      no speaker or text contains a newline. */
  lemma MeetingTranscriptLines(reply: Reply<AsrBody>, items: seq<DialogueItem>)
    requires reply.Response? && reply.status == 200 && reply.body.Some?
    requires reply.body.value.status == Some("completed") && reply.body.value.mode == Some("meeting")
    requires reply.body.value.result.Present? && reply.body.value.result.value.dialogue == Present(items)
    requires |items| >= 1
    requires forall i :: 0 <= i < |items| ==> '\n' !in Render(items[i].speaker) && '\n' !in Render(items[i].text)
    ensures GetAsrResult(reply).Some?
    ensures Split(GetAsrResult(reply).value, '\n') == DialogueLines(items)
  {
    var lines := DialogueLines(items);
    MeetingTranscript(reply, items);
    forall i | 0 <= i < |lines|
      ensures '\n' !in lines[i]
    {
      assert lines[i] == Render(items[i].speaker) + ": " + Render(items[i].text);
    }
    SplitJoin(lines, '\n');
  }
}

=== FILE: text.dfy ===
/** String helpers with Python's semantics: `str.split` on a one-character
    separator, `str.join`, `str.rstrip` of one character, ASCII `str.lower`. */
module Text {

  /** Index of the first occurrence of `c` in `s`. */
  function IndexOf(s: string, c: char): (k: nat)
    requires c in s
    ensures k < |s| && s[k] == c
    ensures c !in s[..k]
  {
    if s[0] == c then 0
    else
      var k := 1 + IndexOf(s[1..], c);
      assert s[..k] == [s[0]] + s[1..][..k - 1];
      k
  }

  /** The first occurrence is the one with no earlier occurrence. */
  lemma IndexOfIs(s: string, c: char, j: nat)
    requires j < |s| && s[j] == c && c !in s[..j]
    ensures IndexOf(s, c) == j
  {
    var k := IndexOf(s, c);
    assert forall i :: 0 <= i < j ==> s[..j][i] == s[i];
    assert forall i :: 0 <= i < k ==> s[..k][i] == s[i];
  }

  /** `s.split(sep)`: the pieces between occurrences of `sep`; the empty string
      splits into one empty piece. */
  function Split(s: string, sep: char): (parts: seq<string>)
    ensures |parts| >= 1
    ensures forall i :: 0 <= i < |parts| ==> sep !in parts[i]
    decreases |s|
  {
    if sep !in s then [s]
    else
      var k := IndexOf(s, sep);
      [s[..k]] + Split(s[k + 1..], sep)
  }

  /** `sep.join(parts)`. */
  function Join(sep: string, parts: seq<string>): string
  {
    if |parts| == 0 then ""
    else if |parts| == 1 then parts[0]
    else parts[0] + sep + Join(sep, parts[1..])
  }

  /** Joining a first piece before a non-empty rest puts one separator
      between them. */
  lemma JoinCons(sep: string, head: string, rest: seq<string>)
    requires |rest| >= 1
    ensures Join(sep, [head] + rest) == head + sep + Join(sep, rest)
  {
    assert ([head] + rest)[1..] == rest;
  }

  /** The joined text starts with the first piece. */
  lemma JoinStartsWithFirst(sep: string, parts: seq<string>)
    requires |parts| >= 1
    ensures parts[0] <= Join(sep, parts)
  {
  }

  /** Joining pieces free of the separator and splitting again gives the pieces back. */
  lemma {:induction false} SplitJoin(parts: seq<string>, sep: char)
    requires |parts| >= 1
    requires forall i :: 0 <= i < |parts| ==> sep !in parts[i]
    ensures Split(Join([sep], parts), sep) == parts
  {
    if |parts| > 1 {
      var rest := Join([sep], parts[1..]);
      assert Join([sep], parts) == parts[0] + [sep] + rest;
      SplitCons(parts[0], rest, sep);
      SplitJoin(parts[1..], sep);
      assert parts == [parts[0]] + parts[1..];
    }
  }

  /** A separator-free head before the first separator is the first piece. */
  lemma SplitCons(head: string, rest: string, sep: char)
    requires sep !in head
    ensures Split(head + [sep] + rest, sep) == [head] + Split(rest, sep)
  {
    var s := head + [sep] + rest;
    assert s[|head|] == sep;
    assert s[..|head|] == head;
    IndexOfIs(s, sep, |head|);
    assert s[|head| + 1..] == rest;
  }

  /** Splitting and joining again gives the original string back. */
  lemma {:induction false} JoinSplit(s: string, sep: char)
    ensures Join([sep], Split(s, sep)) == s
    decreases |s|
  {
    if sep in s {
      var k := IndexOf(s, sep);
      JoinSplit(s[k + 1..], sep);
      var tail := Split(s[k + 1..], sep);
      assert Split(s, sep) == [s[..k]] + tail;
      assert ([s[..k]] + tail)[1..] == tail;
      assert s == s[..k] + [sep] + s[k + 1..];
    }
  }

  /** Index of the last `c` in `s`, or -1. */
  function LastIndexOf(s: string, c: char): (k: int)
    ensures -1 <= k < |s|
    ensures k >= 0 ==> s[k] == c
    ensures forall j :: k < j < |s| ==> s[j] != c
  {
    if |s| == 0 then -1
    else if s[|s| - 1] == c then |s| - 1
    else LastIndexOf(s[..|s| - 1], c)
  }

  /** The last occurrence is the one with no later occurrence. */
  lemma {:induction false} LastIndexOfIs(s: string, c: char, k: nat)
    requires k < |s| && s[k] == c
    requires forall j :: k < j < |s| ==> s[j] != c
    ensures LastIndexOf(s, c) == k
    decreases |s|
  {
    if k < |s| - 1 {
      var init := s[..|s| - 1];
      assert forall j :: k < j < |init| ==> init[j] == s[j];
      LastIndexOfIs(init, c, k);
    }
  }

  lemma {:induction false} LastIndexOfAppend(a: string, b: string, c: char)
    requires c !in b
    ensures LastIndexOf(a + b, c) == LastIndexOf(a, c)
    decreases |b|
  {
    if |b| > 0 {
      assert (a + b)[..|a + b| - 1] == a + b[..|b| - 1];
      LastIndexOfAppend(a, b[..|b| - 1], c);
    } else {
      assert a + b == a;
    }
  }

  /** `s.split(sep)[-1]`: the text after the last separator, or all of `s`
      when there is none. */
  function LastSegment(s: string, sep: char): (r: string)
    ensures sep !in r
  {
    var k := LastIndexOf(s, sep);
    var r := s[k + 1..];
    assert sep !in r by {
      forall j | 0 <= j < |r|
        ensures r[j] != sep
      {
        assert r[j] == s[k + 1 + j];
      }
    }
    r
  }

  /** Whatever precedes the last separator, the last segment is what follows it. */
  lemma LastSegmentAfter(prefix: string, sep: char, name: string)
    requires sep !in name
    ensures LastSegment(prefix + [sep] + name, sep) == name
  {
    var s := prefix + [sep] + name;
    forall j | |prefix| < j < |s|
      ensures s[j] != sep
    {
      assert s[j] == name[j - |prefix| - 1];
    }
    LastIndexOfIs(s, sep, |prefix|);
    assert s[|prefix| + 1..] == name;
  }

  /** When the separator occurs, the string is some prefix, the separator and
      the last segment. */
  lemma LastSegmentSplits(s: string, sep: char)
    requires sep in s
    ensures exists p :: s == p + [sep] + LastSegment(s, sep)
  {
    var k := LastIndexOf(s, sep);
    assert k >= 0;
    assert s == s[..k] + [sep] + s[k + 1..];
  }

  /** Without a separator, the last segment is the whole string. */
  lemma LastSegmentOfPlain(s: string, sep: char)
    requires sep !in s
    ensures LastSegment(s, sep) == s
  {
    assert LastIndexOf(s, sep) == -1;
    assert s[0..] == s;
  }

  /** The last segment is made of characters of the string. */
  lemma LastSegmentChars(s: string, sep: char)
    ensures forall ch :: ch in LastSegment(s, sep) ==> ch in s
  {
    if sep in s {
      LastSegmentSplits(s, sep);
      var p :| s == p + [sep] + LastSegment(s, sep);
    } else {
      LastSegmentOfPlain(s, sep);
    }
  }

  /** Past any separator, the last segment is unchanged. */
  lemma LastSegmentPast(s: string, sep: char, k: nat)
    requires k < |s| && s[k] == sep
    ensures LastSegment(s, sep) == LastSegment(s[k + 1..], sep)
  {
    if sep in s[k + 1..] {
      LastSegmentPastLater(s, sep, k);
    } else {
      LastSegmentPastLast(s, sep, k);
    }
  }

  lemma LastSegmentPastLater(s: string, sep: char, k: nat)
    requires k < |s| && s[k] == sep && sep in s[k + 1..]
    ensures LastSegment(s, sep) == LastSegment(s[k + 1..], sep)
  {
    var rest := s[k + 1..];
    LastSegmentSplits(rest, sep);
    var p :| rest == p + [sep] + LastSegment(rest, sep);
    assert s == (s[..k] + [sep] + p) + [sep] + LastSegment(rest, sep);
    LastSegmentAfter(s[..k] + [sep] + p, sep, LastSegment(rest, sep));
  }

  lemma LastSegmentPastLast(s: string, sep: char, k: nat)
    requires k < |s| && s[k] == sep && sep !in s[k + 1..]
    ensures LastSegment(s, sep) == LastSegment(s[k + 1..], sep)
  {
    var rest := s[k + 1..];
    assert s == s[..k] + [sep] + rest;
    LastSegmentAfter(s[..k], sep, rest);
    LastSegmentOfPlain(rest, sep);
  }

  /** The last segment is the last piece `split` produces. */
  lemma {:induction false} LastSegmentIsLastPiece(s: string, sep: char)
    ensures LastSegment(s, sep) == LastPiece(s, sep)
    decreases |s|
  {
    if sep in s {
      var k := IndexOf(s, sep);
      assert s == s[..k] + [sep] + s[k + 1..];
      LastPieceStep(s[..k], s[k + 1..], sep);
      LastSegmentIsLastPiece(s[k + 1..], sep);
      LastSegmentPast(s, sep, k);
    } else {
      LastSegmentOfPlain(s, sep);
    }
  }

  /** `s.split(sep)[-1]` computed by `split`. */
  function LastPiece(s: string, sep: char): string {
    var parts := Split(s, sep);
    parts[|parts| - 1]
  }

  lemma LastPieceStep(head: string, rest: string, sep: char)
    requires sep !in head
    ensures LastPiece(head + [sep] + rest, sep) == LastPiece(rest, sep)
  {
    SplitCons(head, rest, sep);
    LastOfCons(head, Split(rest, sep));
  }

  lemma LastOfCons(head: string, tail: seq<string>)
    requires |tail| >= 1
    ensures var parts := [head] + tail; parts[|parts| - 1] == tail[|tail| - 1]
  {
  }

  /** `s.rstrip(c)`: drops every trailing `c`. */
  function StripTrailing(s: string, c: char): (r: string)
    ensures r <= s
    ensures |r| == 0 || r[|r| - 1] != c
    ensures forall i :: |r| <= i < |s| ==> s[i] == c
  {
    if |s| > 0 && s[|s| - 1] == c then StripTrailing(s[..|s| - 1], c) else s
  }

  /** Stripping twice strips nothing more. */
  lemma StripTrailingIdempotent(s: string, c: char)
    ensures StripTrailing(StripTrailing(s, c), c) == StripTrailing(s, c)
  {
  }

  function LowerChar(ch: char): char {
    if 'A' <= ch <= 'Z' then (ch as int - 'A' as int + 'a' as int) as char else ch
  }

  /** `s.lower()` restricted to ASCII letters. */
  function AsciiLower(s: string): (r: string)
    ensures |r| == |s|
    ensures forall i :: 0 <= i < |s| ==> r[i] == LowerChar(s[i])
  {
    if |s| == 0 then "" else [LowerChar(s[0])] + AsciiLower(s[1..])
  }
}

=== FILE: transcription.dfy ===
/** The speech-to-text upload handler: the audio-extension allow-list and the
    life of the temporary file the upload is saved to. The file system, the
    tenant lookup and the recognition model are inputs. */
module Transcription {
  import opened Wrappers
  import opened Text

  const ALLOWED_EXTENSIONS: set<string> := {".wav", ".mp3", ".m4a", ".aac", ".flac", ".ogg", ".webm", ".opus", ".wma"}

  /** `sorted(ALLOWED_EXTS)`, as listed in the rejection message. */
  const ALLOWED_SORTED: seq<string> := [".aac", ".flac", ".m4a", ".mp3", ".ogg", ".opus", ".wav", ".webm", ".wma"]

  /** Lexicographic order of strings by code point, as Python compares them. */
  predicate LexLess(a: string, b: string)
    decreases |a|
  {
    |b| > 0 && (|a| == 0 || a[0] < b[0] || (a[0] == b[0] && LexLess(a[1..], b[1..])))
  }

  /** The listed extensions are exactly the allowed set. */
  lemma AllowedListMembers()
    ensures forall e :: e in ALLOWED_SORTED <==> e in ALLOWED_EXTENSIONS
  {
  }

  /** The listed extensions are in strictly increasing order. */
  lemma AllowedListIsSorted()
    ensures forall i :: 0 <= i < |ALLOWED_SORTED| - 1 ==> LexLess(ALLOWED_SORTED[i], ALLOWED_SORTED[i + 1])
  {
    assert LexLess(".aac", ".flac");
    assert LexLess(".flac", ".m4a");
    assert LexLess(".m4a", ".mp3");
    assert LexLess(".mp3", ".ogg");
    assert LexLess(".ogg", ".opus");
    assert LexLess(".opus", ".wav");
    assert LexLess(".wav", ".webm");
    assert LexLess(".webm", ".wma");
  }

  /** `posixpath.splitext(p)[1]`: from the last dot of the final path
      component, unless that component is only leading dots up to it. */
  function SplitExt(p: string): (ext: string)
    ensures |ext| <= |p|
    ensures ext == "" || (ext[0] == '.' && ext == p[|p| - |ext|..])
    ensures ext != "" ==> '.' !in ext[1..] && '/' !in ext
  {
    var sep := LastIndexOf(p, '/');
    var dot := LastIndexOf(p, '.');
    if dot > sep && exists j :: sep + 1 <= j < dot && p[j] != '.' then
      assert forall j :: dot < j < |p| ==> p[j] != '.' && p[j] != '/';
      var tail := p[dot + 1..];
      assert forall j :: 0 <= j < |tail| ==> tail[j] == p[dot + 1 + j];
      p[dot..]
    else ""
  }

  /** An extension as splitext returns it: one leading dot, no other dot, no
      slash, already lower-case. */
  predicate PlainExtension(ext: string) {
    |ext| > 0 && ext[0] == '.' && '.' !in ext[1..] && '/' !in ext && AsciiLower(ext) == ext
  }

  /** A dot followed by lower-case letters and digits is a plain extension. */
  lemma DotWordIsPlain(ext: string)
    requires |ext| > 0 && ext[0] == '.'
    requires forall j :: 1 <= j < |ext| ==> 'a' <= ext[j] <= 'z' || '0' <= ext[j] <= '9'
    ensures PlainExtension(ext)
  {
    assert AsciiLower(ext) == ext;
    assert forall j :: 0 <= j < |ext[1..]| ==> ext[1..][j] == ext[j + 1];
  }

  lemma AllowedArePlain(ext: string)
    requires ext in ALLOWED_EXTENSIONS
    ensures PlainExtension(ext)
  {
    assert forall j :: 1 <= j < |ext| ==> 'a' <= ext[j] <= 'z' || '0' <= ext[j] <= '9';
    DotWordIsPlain(ext);
  }

  /** A name ending in a plain extension, after a final component that is not
      only dots, has exactly that suffix. */
  lemma SuffixOfName(stem: string, ext: string)
    requires PlainExtension(ext)
    requires |stem| > 0 && stem[|stem| - 1] != '.' && stem[|stem| - 1] != '/'
    ensures Suffix(Some(stem + ext)) == ext
  {
    var p := stem + ext;
    assert p == (stem + ".") + ext[1..];
    LastIndexOfAppend(stem + ".", ext[1..], '.');
    LastIndexOfAppend(stem, ext, '/');
    assert p[|stem| - 1] != '.';
    assert SplitExt(p) == ext;
  }

  /** A file name ending in an allowed extension is accepted. */
  lemma AllowedNameAccepted(stem: string, ext: string)
    requires ext in ALLOWED_EXTENSIONS
    requires |stem| > 0 && stem[|stem| - 1] != '.' && stem[|stem| - 1] != '/'
    ensures Suffix(Some(stem + ext)) == ext
  {
    AllowedArePlain(ext);
    SuffixOfName(stem, ext);
  }

  /** The lower-cased extension of the uploaded file name (missing name read as ""). */
  function Suffix(filename: Option<string>): string {
    AsciiLower(SplitExt(filename.GetOr("")))
  }

  function RejectionMessage(suffix: string): string {
    "Unsupported audio format: " + suffix + ". Allowed: " + Join(", ", ALLOWED_SORTED)
  }

  // ---------------------------------------------------------------------------
  // The handler and its temporary file
  // ---------------------------------------------------------------------------

  /** `tenants[0]`; `asrId` is "" when no default recognition model is set. */
  datatype Tenant = Tenant(asrId: string)

  datatype TranscribeReply =
    | MissingFile                // "Missing 'file' in multipart form-data"
    | Unsupported(message: string)
    | TenantNotFound             // "Tenant not found!"
    | NoAsrModel                 // "No default ASR model is set"
    | Transcript(text: string)   // batch mode: {"text": ...}
    | EventStream                // stream mode: recognition events relayed as they arrive
    | ServerError                // batch transcription raised

  /** The reply and what happened to the temporary file: created, and whether
      its removal was attempted afterwards. */
  datatype Lifecycle = Lifecycle(reply: TranscribeReply, tempCreated: bool, tempRemoved: bool)

  /** `stream_mode`: the form's `stream` field (default "false") lower-cased equals "true". */
  predicate StreamMode(streamField: Option<string>) {
    AsciiLower(streamField.GetOr("false")) == "true"
  }

  /** The handler as written: the temporary file is created before the tenant
      and model checks, and batch transcription removes it only when the
      transcription returns. `transcript` is `None` when transcription raises. */
  function TranscribeAsWritten(hasFile: bool, filename: Option<string>, streamField: Option<string>,
                               tenant: Option<Tenant>, transcript: Option<string>): (l: Lifecycle)
    ensures l.reply.Unsupported? <==> hasFile && Suffix(filename) !in ALLOWED_EXTENSIONS
    ensures l.tempCreated <==> hasFile && Suffix(filename) in ALLOWED_EXTENSIONS
  {
    if !hasFile then Lifecycle(MissingFile, false, false)
    else if Suffix(filename) !in ALLOWED_EXTENSIONS then
      Lifecycle(Unsupported(RejectionMessage(Suffix(filename))), false, false)
    else if tenant.None? then Lifecycle(TenantNotFound, true, false)
    else if tenant.value.asrId == "" then Lifecycle(NoAsrModel, true, false)
    else if StreamMode(streamField) then Lifecycle(EventStream, true, true)
    else if transcript.None? then Lifecycle(ServerError, true, false)
    else Lifecycle(Transcript(transcript.value), true, true)
  }

  /** The leak: a supported upload by a user with no tenant leaves its
      temporary file behind. */
  lemma TempFileLeaksWithoutTenant(streamField: Option<string>, transcript: Option<string>)
    ensures var l := TranscribeAsWritten(true, Some("a.wav"), streamField, None, transcript);
            l.reply == TenantNotFound && l.tempCreated && !l.tempRemoved
  {
    assert SplitExt("a.wav") == ".wav" by {
      assert LastIndexOf("a.wav", '/') == -1;
      assert LastIndexOf("a.w", '.') == 1;
      assert "a.wav"[..4] == "a.wa" && "a.wa"[..3] == "a.w";
      assert LastIndexOf("a.wav", '.') == 1;
      assert "a.wav"[0] != '.';
    }
    assert AsciiLower(".wav") == ".wav";
  }

  /** The handler with the checks moved before the file is created and the
      batch removal made unconditional: same replies, and every created
      temporary file is removed. */
  function Transcribe(hasFile: bool, filename: Option<string>, streamField: Option<string>,
                      tenant: Option<Tenant>, transcript: Option<string>): (l: Lifecycle)
    ensures l.reply.Unsupported? <==> hasFile && Suffix(filename) !in ALLOWED_EXTENSIONS
    ensures l.reply.Unsupported? ==> !l.tempCreated
    ensures l.tempCreated ==> l.tempRemoved
    ensures l.reply == TranscribeAsWritten(hasFile, filename, streamField, tenant, transcript).reply
  {
    if !hasFile then Lifecycle(MissingFile, false, false)
    else if Suffix(filename) !in ALLOWED_EXTENSIONS then
      Lifecycle(Unsupported(RejectionMessage(Suffix(filename))), false, false)
    else if tenant.None? then Lifecycle(TenantNotFound, false, false)
    else if tenant.value.asrId == "" then Lifecycle(NoAsrModel, false, false)
    else if StreamMode(streamField) then Lifecycle(EventStream, true, true)
    else if transcript.None? then Lifecycle(ServerError, true, true)
    else Lifecycle(Transcript(transcript.value), true, true)
  }
}

=== FILE: tts_storage.dfy ===
/** Where synthesized audio lives in the blob store, and how the handlers
    recover the object key and the content type from a stored URL. The bucket
    is the conversation id; the key is `tts/<task id>_<hex>.mp3`, where the hex
    is a random UUID supplied by the caller. */
module TtsStorage {
  import opened Wrappers
  import opened Text

  const KEY_PREFIX := "tts/"

  /** The object name the callback handler generates for a finished task. */
  function StoredFilename(taskId: string, hex: string): string {
    taskId + "_" + hex + ".mp3"
  }

  function StoredKey(taskId: string, hex: string): (key: string)
    ensures KEY_PREFIX <= key
  {
    KEY_PREFIX + StoredFilename(taskId, hex)
  }

  // ---------------------------------------------------------------------------
  // The path component of a URL (`urllib.parse.urlparse(url).path`)
  // ---------------------------------------------------------------------------

  predicate IsAsciiLetter(ch: char) {
    'a' <= ch <= 'z' || 'A' <= ch <= 'Z'
  }

  predicate IsSchemeChar(ch: char) {
    IsAsciiLetter(ch) || '0' <= ch <= '9' || ch == '+' || ch == '-' || ch == '.'
  }

  /** Index of the first character of `s` in `cs`, or `|s|` if there is none. */
  function FirstOf(s: string, cs: set<char>): (k: nat)
    ensures k <= |s|
    ensures forall j :: 0 <= j < k ==> s[j] !in cs
    ensures k < |s| ==> s[k] in cs
  {
    if |s| == 0 then 0
    else if s[0] in cs then 0
    else 1 + FirstOf(s[1..], cs)
  }

  /** Drops `scheme:` when the text before the first colon is a valid scheme. */
  function AfterScheme(url: string): string {
    if ':' !in url then url
    else
      var i := IndexOf(url, ':');
      if i > 0 && IsAsciiLetter(url[0]) && forall k :: 0 <= k < i ==> IsSchemeChar(url[k])
      then url[i + 1..] else url
  }

  /** Drops `//netloc`, which ends at the first `/`, `?` or `#`. */
  function AfterNetloc(s: string): string {
    if |s| >= 2 && s[..2] == "//" then s[2..][FirstOf(s[2..], {'/', '?', '#'})..] else s
  }

  /** The URL's path as `urlsplit` cuts it: after scheme and network
      location, before query and fragment. `urlparse` further moves `;params`
      out of the last segment; `FilenameFromUrl` accounts for that. */
  function UrlPath(url: string): (path: string)
    ensures '?' !in path && '#' !in path
  {
    BeforeQuery(AfterNetloc(AfterScheme(url)))
  }

  /** A relative path with no scheme, network location, query or fragment is
      its own path. */
  lemma UrlPathOfPlain(url: string)
    requires ':' !in url && '?' !in url && '#' !in url && !(|url| >= 2 && url[..2] == "//")
    ensures UrlPath(url) == url
  {
    FirstOfIs(url, {'#'}, |url|);
    assert url[..|url|] == url;
    FirstOfIs(url, {'?'}, |url|);
  }

  /** What remains once the fragment and then the query are cut off. */
  function BeforeQuery(rest: string): (path: string)
    ensures '?' !in path && '#' !in path
  {
    var noFragment := rest[..FirstOf(rest, {'#'})];
    noFragment[..FirstOf(noFragment, {'?'})]
  }

  lemma BeforeQueryOf(path: string, query: string)
    requires '?' !in path && '#' !in path && '#' !in query
    ensures BeforeQuery(path + "?" + query) == path
  {
    var tail := path + "?" + query;
    FirstOfIs(tail, {'#'}, |tail|);
    assert tail[..|tail|] == tail;
    FirstOfIs(tail, {'?'}, |path|);
    assert tail[..|path|] == path;
  }

  /** `path.split("/")[-1]` of `urlparse(url).path`: the last segment of
      the path, cut at its first `;` (for the `http` family of schemes,
      `urlparse` takes the parameters starting at the first `;` after the
      last `/` out of the path). */
  function FilenameFromUrl(url: string): (name: string)
    ensures '/' !in name && '?' !in name && '#' !in name && ';' !in name
  {
    var path := UrlPath(url);
    LastSegmentChars(path, '/');
    var segment := LastSegment(path, '/');
    segment[..FirstOf(segment, {';'})]
  }

  /** The object key the playback and download handlers look up. */
  function KeyFromUrl(url: string): (key: string)
    ensures KEY_PREFIX <= key && '/' !in key[|KEY_PREFIX|..]
  {
    KEY_PREFIX + FilenameFromUrl(url)
  }

  lemma AfterSchemeOf(scheme: string, rest: string)
    requires |scheme| > 0 && IsAsciiLetter(scheme[0])
    requires forall k :: 0 <= k < |scheme| ==> IsSchemeChar(scheme[k])
    ensures AfterScheme(scheme + ":" + rest) == rest
  {
    var url := scheme + ":" + rest;
    assert url[|scheme|] == ':';
    assert url[..|scheme|] == scheme;
    IndexOfIs(url, ':', |scheme|);
    assert url[|scheme| + 1..] == rest;
  }

  lemma AfterNetlocOf(host: string, tail: string)
    requires forall k :: 0 <= k < |host| ==> host[k] !in {'/', '?', '#'}
    requires |tail| > 0 && tail[0] == '/'
    ensures AfterNetloc("//" + host + tail) == tail
  {
    var s := "//" + host + tail;
    assert s[..2] == "//";
    var rest := host + tail;
    assert s[2..] == rest;
    FirstOfIs(rest, {'/', '?', '#'}, |host|);
    assert rest[|host|..] == tail;
  }

  /** A URL `scheme://host/path?query` has path `/path`; the host may carry a
      port. */
  lemma UrlPathOf(scheme: string, host: string, path: string, query: string)
    requires |scheme| > 0 && IsAsciiLetter(scheme[0])
    requires forall k :: 0 <= k < |scheme| ==> IsSchemeChar(scheme[k])
    requires forall k :: 0 <= k < |host| ==> host[k] !in {'/', '?', '#'}
    requires |path| > 0 && path[0] == '/'
    requires '?' !in path && '#' !in path && '#' !in query
    ensures UrlPath(scheme + "://" + host + path + "?" + query) == path
  {
    var tail := path + "?" + query;
    var url := scheme + "://" + host + path + "?" + query;
    assert url == scheme + ":" + ("//" + host + tail);
    AfterSchemeOf(scheme, "//" + host + tail);
    AfterNetlocOf(host, tail);
    assert AfterNetloc(AfterScheme(url)) == tail;
    BeforeQueryOf(path, query);
  }

  lemma FirstOfIs(s: string, cs: set<char>, k: nat)
    requires k <= |s|
    requires forall j :: 0 <= j < k ==> s[j] !in cs
    requires k < |s| ==> s[k] in cs
    ensures FirstOf(s, cs) == k
  {
    if |s| > 0 && s[0] !in cs {
      FirstOfIs(s[1..], cs, k - 1);
    }
  }

  /** The generated file name has none of the characters that end a path
      segment, when the task id and the hex have none. */
  lemma StoredFilenameChars(taskId: string, hex: string, cs: set<char>)
    requires '_' !in cs && '.' !in cs && 'm' !in cs && 'p' !in cs && '3' !in cs
    requires forall j :: 0 <= j < |taskId| ==> taskId[j] !in cs
    requires forall j :: 0 <= j < |hex| ==> hex[j] !in cs
    ensures forall j :: 0 <= j < |StoredFilename(taskId, hex)| ==> StoredFilename(taskId, hex)[j] !in cs
  {
    var name := StoredFilename(taskId, hex);
    forall j | 0 <= j < |name|
      ensures name[j] !in cs
    {
      if j < |taskId| {
        assert name[j] == taskId[j];
      } else if j == |taskId| {
        assert name[j] == '_';
      } else if j < |taskId| + 1 + |hex| {
        assert name[j] == hex[j - |taskId| - 1];
      } else {
        assert name[j] in ".mp3";
      }
    }
  }

  /** The path of the presigned URL is `/<bucket>/tts/<file name>`. */
  lemma StoredUrlPath(host: string, bucket: string, taskId: string, hex: string, query: string)
    requires forall k :: 0 <= k < |host| ==> host[k] !in {'/', '?', '#'}
    requires '?' !in bucket && '#' !in bucket && '#' !in query
    requires '?' !in StoredFilename(taskId, hex) && '#' !in StoredFilename(taskId, hex)
    ensures UrlPath("http://" + host + "/" + bucket + "/" + StoredKey(taskId, hex) + "?" + query)
            == ("/" + bucket + "/tts") + ['/'] + StoredFilename(taskId, hex)
  {
    var name := StoredFilename(taskId, hex);
    var path := "/" + bucket + "/" + StoredKey(taskId, hex);
    assert path == ("/" + bucket + "/tts") + ['/'] + name;
    assert "http://" + host + "/" + bucket + "/" + StoredKey(taskId, hex) + "?" + query
           == "http" + "://" + host + path + "?" + query;
    UrlPathOf("http", host, path, query);
  }

  /** Round trip: the presigned URL of an object stored under
      `tts/<task id>_<hex>.mp3` leads the handlers back to the same key, as
      long as the task id and the hex contain none of `/ ? # ;`. */
  lemma StoredKeyRoundTrip(host: string, bucket: string, taskId: string, hex: string, query: string)
    requires forall k :: 0 <= k < |host| ==> host[k] !in {'/', '?', '#'}
    requires '?' !in bucket && '#' !in bucket && '#' !in query
    requires '/' !in taskId && '?' !in taskId && '#' !in taskId && ';' !in taskId
    requires '/' !in hex && '?' !in hex && '#' !in hex && ';' !in hex
    ensures KeyFromUrl("http://" + host + "/" + bucket + "/" + StoredKey(taskId, hex) + "?" + query)
            == StoredKey(taskId, hex)
  {
    var name := StoredFilename(taskId, hex);
    StoredFilenameChars(taskId, hex, {'/', '?', '#', ';'});
    assert '/' !in name && '?' !in name && '#' !in name && ';' !in name;
    StoredUrlPath(host, bucket, taskId, hex, query);
    FilenameOfPath("http://" + host + "/" + bucket + "/" + StoredKey(taskId, hex) + "?" + query,
                   "/" + bucket + "/tts", name);
  }

  /** A URL whose path ends in `/<name>` names the file `name`, when `name`
      has no `/` and no `;`. */
  lemma FilenameOfPath(url: string, dir: string, name: string)
    requires UrlPath(url) == dir + ['/'] + name
    requires '/' !in name && ';' !in name
    ensures FilenameFromUrl(url) == name
  {
    LastSegmentAfter(dir, '/', name);
    FirstOfIs(name, {';'}, |name|);
    assert name[..|name|] == name;
  }

  // ---------------------------------------------------------------------------
  // Content type
  // ---------------------------------------------------------------------------

  /** The match of `\.([^.]+)$`: the non-empty text after the last dot. */
  function Extension(filename: string): (ext: Option<string>)
    ensures ext.Some? ==> ext.value != "" && '.' !in ext.value
    ensures ext.Some? ==> exists p :: filename == p + "." + ext.value
    ensures ext.None? ==> '.' !in filename || filename[|filename| - 1] == '.'
  {
    if '.' !in filename then None
    else
      var ext := LastSegment(filename, '.');
      LastSegmentSplits(filename, '.');
      if ext == "" then None else Some(ext)
  }

  /** The `Content-Type` header set on a served file, when the name has an
      extension. */
  function ContentType(filename: string): (ct: Option<string>)
    ensures ct.Some? <==> Extension(filename).Some?
    ensures ct.Some? ==> ct.value == "audio/" + Extension(filename).value
  {
    match Extension(filename)
    case Some(ext) => Some("audio/" + ext)
    case None => None
  }

  /** Every file the callback stores is served as `audio/mp3`. */
  lemma StoredFileContentType(taskId: string, hex: string)
    ensures ContentType(StoredFilename(taskId, hex)) == Some("audio/mp3")
  {
    var f := StoredFilename(taskId, hex);
    assert f == (taskId + "_" + hex) + ['.'] + "mp3";
    assert f[|f| - 4] == '.';
    LastSegmentAfter(taskId + "_" + hex, '.', "mp3");
    assert LastSegment(f, '.') == "mp3";
    assert Extension(f) == Some("mp3");
    assert "audio/" + "mp3" == "audio/mp3";
  }
}

=== FILE: tts_tasks.dfy ===
/** The text-to-speech task lifecycle of the chat handlers: submitting a
    synthesis job for a conversation, and the out-of-band callback that
    resolves the task id to a conversation, propagates the task status to the
    conversation and its messages, and on completion stores the audio in the
    blob store. Remote responses, blob-store outcomes, the random hex of the
    object name and the success of the final save are inputs. */
module TtsTasks {
  import opened Wrappers
  import opened Records
  import opened TtsStorage

  // ---------------------------------------------------------------------------
  // Submission (`/tts/generate`)
  // ---------------------------------------------------------------------------

  const CALLBACK_URL := "http://127.0.0.1:9380/v1/conversation/tts/callback"

  /** The form fields posted to the synthesis service. */
  function SubmitForm(content: string): (form: map<string, string>)
    ensures form.Keys == {"text", "language_id", "exaggeration", "temperature", "cfg_weight", "seed_num", "callback_url"}
    ensures form["text"] == content && form["callback_url"] == CALLBACK_URL
  {
    map["text" := content, "language_id" := "zh", "exaggeration" := "0.5", "temperature" := "0.8",
        "cfg_weight" := "0.5", "seed_num" := "0", "callback_url" := CALLBACK_URL]
  }

  /** The decoded JSON body of the submission reply. */
  datatype SubmitBody = SubmitBody(code: Option<int>, msg: Option<string>, taskId: Option<string>)

  /** The submission reply: an HTTP status with a body that decoded or did not,
      or an exception from the transport. */
  datatype SubmitReply = SubmitRaised | SubmitResponse(status: int, body: Option<SubmitBody>)

  datatype GenerateError =
    | ServiceStatus(status: int)     // "TTS API error: <text>"
    | ServiceCode(msg: Option<string>)  // "TTS API error: <msg>"
    | MissingTaskIdInReply           // "Invalid TTS API response: missing task_id"
    | ServerError                    // an exception (transport or JSON decoding)

  /** `generate_tts` after the conversation lookup: on an accepted reply the
      conversation records the task id and the status `pending`. */
  function GenerateTts(c: Conversation, reply: SubmitReply): (r: Result<(string, Conversation), GenerateError>)
    ensures r.Ok? <==> reply.SubmitResponse? && reply.status == 200 && reply.body.Some?
                       && reply.body.value.code == Some(0) && Truthy(reply.body.value.taskId)
    ensures r.Ok? ==> r.value.0 == reply.body.value.taskId.value
    ensures r.Ok? ==> r.value.1 == c.(ttsTaskId := Some(r.value.0), ttsStatus := Some(PENDING))
    ensures reply.SubmitResponse? && reply.status != 200 ==> r == Err(ServiceStatus(reply.status))
  {
    match reply
    case SubmitRaised => Err(ServerError)
    case SubmitResponse(status, body) =>
      if status != 200 then Err(ServiceStatus(status))
      else if body.None? then Err(ServerError)
      else if body.value.code != Some(0) then Err(ServiceCode(body.value.msg))
      else if !Truthy(body.value.taskId) then Err(MissingTaskIdInReply)
      else
        var tid := body.value.taskId.value;
        Ok((tid, c.(ttsTaskId := Some(tid), ttsStatus := Some(PENDING))))
  }

  // ---------------------------------------------------------------------------
  // Callback: resolving the task id
  // ---------------------------------------------------------------------------

  /** Conversation `i` is the first whose conversation-level task id is `tid`. */
  predicate IsFirstOwner(convs: seq<Conversation>, tid: string, i: int) {
    0 <= i < |convs| && convs[i].ttsTaskId == Some(tid)
    && forall j :: 0 <= j < i ==> convs[j].ttsTaskId != Some(tid)
  }

  /** Conversation `i` is the first with a message that carries `tid`. */
  predicate IsFirstMessageOwner(convs: seq<Conversation>, tid: string, i: int) {
    0 <= i < |convs| && HasTaskMessage(convs[i], tid)
    && forall j :: 0 <= j < i ==> !HasTaskMessage(convs[j], tid)
  }

  function FirstOwner(convs: seq<Conversation>, tid: string): (r: Option<nat>)
    ensures r.None? <==> forall j :: 0 <= j < |convs| ==> convs[j].ttsTaskId != Some(tid)
    ensures r.Some? ==> IsFirstOwner(convs, tid, r.value)
  {
    if |convs| == 0 then None
    else if convs[0].ttsTaskId == Some(tid) then Some(0)
    else
      match FirstOwner(convs[1..], tid)
      case None => None
      case Some(k) =>
        assert forall j :: 1 <= j < k + 1 ==> convs[j] == convs[1..][j - 1];
        Some(k + 1)
  }

  function FirstMessageOwner(convs: seq<Conversation>, tid: string): (r: Option<nat>)
    ensures r.None? <==> forall j :: 0 <= j < |convs| ==> !HasTaskMessage(convs[j], tid)
    ensures r.Some? ==> IsFirstMessageOwner(convs, tid, r.value)
  {
    if |convs| == 0 then None
    else if HasTaskMessage(convs[0], tid) then Some(0)
    else
      match FirstMessageOwner(convs[1..], tid)
      case None => None
      case Some(k) =>
        assert forall j :: 1 <= j < k + 1 ==> convs[j] == convs[1..][j - 1];
        Some(k + 1)
  }

  datatype CallbackError =
    | MissingTaskId                // "Missing task_id"
    | ConversationNotFoundForTask  // "Conversation not found for task_id"
    | UpdateFailed                 // "Failed to update conversation"

  /** The conversation a callback belongs to, as an index into all stored
      conversations in query order: a conversation-level match is preferred,
      then the first conversation with a matching message. */
  function ResolveTask(convs: seq<Conversation>, taskId: Option<string>): (r: Result<nat, CallbackError>)
    ensures !Truthy(taskId) ==> r == Err(MissingTaskId)
    ensures Truthy(taskId) && (exists j :: 0 <= j < |convs| && convs[j].ttsTaskId == taskId)
            ==> r.Ok? && IsFirstOwner(convs, taskId.value, r.value)
    ensures Truthy(taskId) && (forall j :: 0 <= j < |convs| ==> convs[j].ttsTaskId != taskId)
            ==> (r.Ok? <==> exists j :: 0 <= j < |convs| && HasTaskMessage(convs[j], taskId.value))
    ensures Truthy(taskId) && (forall j :: 0 <= j < |convs| ==> convs[j].ttsTaskId != taskId) && r.Ok?
            ==> IsFirstMessageOwner(convs, taskId.value, r.value)
    ensures r.Err? ==> r.error != UpdateFailed
    ensures Truthy(taskId) && r.Err? ==> r.error == ConversationNotFoundForTask
  {
    if !Truthy(taskId) then Err(MissingTaskId)
    else
      match FirstOwner(convs, taskId.value)
      case Some(i) => Ok(i)
      case None =>
        match FirstMessageOwner(convs, taskId.value)
        case Some(i) => Ok(i)
        case None => Err(ConversationNotFoundForTask)
  }

  // ---------------------------------------------------------------------------
  // Callback: status propagation
  // ---------------------------------------------------------------------------

  /** The per-message update of the first pass: a message carrying the task
      takes the status, and on completion the callback's URL when there is one. */
  function MarkMessage(m: Message, status: Option<string>, outputUrl: Option<string>): Message {
    m.(ttsStatus := status,
       ttsFileUrl := if status == Some(COMPLETED) && Truthy(outputUrl) then outputUrl else m.ttsFileUrl)
  }

  function MarkMessages(ms: seq<Message>, tid: string, status: Option<string>, outputUrl: Option<string>): (r: seq<Message>)
    ensures |r| == |ms|
    ensures forall j :: 0 <= j < |ms| && CarriesTask(ms[j], tid) ==> r[j] == MarkMessage(ms[j], status, outputUrl)
    ensures forall j :: 0 <= j < |ms| && !CarriesTask(ms[j], tid) ==> r[j] == ms[j]
  {
    if |ms| == 0 then []
    else [if CarriesTask(ms[0], tid) then MarkMessage(ms[0], status, outputUrl) else ms[0]]
         + MarkMessages(ms[1..], tid, status, outputUrl)
  }

  /** The conversation's status becomes the callback's status, whatever it was
      before; the flag says whether some message carried the task. */
  function PropagateStatus(c: Conversation, tid: string, status: Option<string>, outputUrl: Option<string>)
    : (r: (Conversation, bool))
    ensures r.0 == c.(ttsStatus := status, messages := r.0.messages)
    ensures |r.0.messages| == |c.messages|
    ensures forall j :: 0 <= j < |c.messages| && CarriesTask(c.messages[j], tid) ==>
      r.0.messages[j] == MarkMessage(c.messages[j], status, outputUrl)
    ensures forall j :: 0 <= j < |c.messages| && !CarriesTask(c.messages[j], tid) ==>
      r.0.messages[j] == c.messages[j]
    ensures r.1 <==> HasTaskMessage(c, tid)
    ensures HasTaskMessage(r.0, tid) <==> HasTaskMessage(c, tid)
  {
    var ms := MarkMessages(c.messages, tid, status, outputUrl);
    assert forall j :: 0 <= j < |ms| ==> (CarriesTask(ms[j], tid) <==> CarriesTask(c.messages[j], tid));
    (c.(ttsStatus := status, messages := MarkMessages(c.messages, tid, status, outputUrl)),
     HasTaskMessage(c, tid))
  }

  /** The back-fill pass: a message carrying the task takes the presigned URL. */
  function BackfillMessages(ms: seq<Message>, tid: string, url: string): (r: seq<Message>)
    ensures |r| == |ms|
    ensures forall j :: 0 <= j < |ms| && CarriesTask(ms[j], tid) ==> r[j] == ms[j].(ttsFileUrl := Some(url))
    ensures forall j :: 0 <= j < |ms| && !CarriesTask(ms[j], tid) ==> r[j] == ms[j]
  {
    if |ms| == 0 then []
    else [if CarriesTask(ms[0], tid) then ms[0].(ttsFileUrl := Some(url)) else ms[0]]
         + BackfillMessages(ms[1..], tid, url)
  }

  /** The back-fill only runs when no message was updated by the first pass,
      and it tests the same predicate, so it never changes a message. */
  lemma BackfillNeverApplies(c: Conversation, tid: string, status: Option<string>, outputUrl: Option<string>, url: string)
    requires !PropagateStatus(c, tid, status, outputUrl).1
    ensures BackfillMessages(PropagateStatus(c, tid, status, outputUrl).0.messages, tid, url)
            == PropagateStatus(c, tid, status, outputUrl).0.messages
  {
    var ms := PropagateStatus(c, tid, status, outputUrl).0.messages;
    assert forall j :: 0 <= j < |ms| ==> ms[j] == c.messages[j];
  }

  // ---------------------------------------------------------------------------
  // Callback: the completed path and the save
  // ---------------------------------------------------------------------------

  datatype CallbackRequest = CallbackRequest(taskId: Option<string>, status: Option<string>, outputUrl: Option<string>)

  /** The audio download from the synthesis service. */
  datatype Download = DownloadRaised | DownloadResponse(status: int, audio: Bytes)

  /** The blob-store steps: `put` raising, `put` succeeding and the presigned
      URL raising, or both succeeding. */
  datatype Upload = PutRaised | PresignRaised | Presigned(url: string)

  datatype CallbackReply =
    | Processed              // {"success": True}
    | ProcessedWithoutAudio  // {"success": True, "message": "Status updated but audio download failed"}

  /** An object written to the blob store: bucket, key and bytes. */
  datatype StoredObject = StoredObject(bucket: string, key: string, audio: Bytes)

  /** What one callback does: its reply, the record it saved (when the save
      succeeded) and the object it put in the blob store (which is not undone
      when the save fails). */
  datatype CallbackOutcome = CallbackOutcome(reply: Result<CallbackReply, CallbackError>,
                                             saved: Option<Conversation>,
                                             stored: Option<StoredObject>)

  function Save(record: Conversation, reply: CallbackReply, saveOk: bool, stored: Option<StoredObject>): CallbackOutcome {
    if saveOk then CallbackOutcome(Ok(reply), Some(record), stored)
    else CallbackOutcome(Err(UpdateFailed), None, stored)
  }

  /** The completed path after status propagation: download, store, presign,
      and the guarded back-fill. Any exception leaves the propagated record as
      it is. */
  function CompleteAudio(marked: Conversation, updated: bool, tid: string, download: Download,
                         hex: string, upload: Upload, saveOk: bool): (o: CallbackOutcome)
    requires updated <==> HasTaskMessage(marked, tid)
    ensures o.saved.Some? <==> saveOk
    ensures o.saved.Some? && download.DownloadResponse? && download.status == 200 && upload.Presigned?
            ==> o.saved.value == marked.(ttsFileUrl := Some(upload.url))
    ensures o.saved.Some? && !(download.DownloadResponse? && download.status == 200 && upload.Presigned?)
            ==> o.saved.value == marked
    ensures o.stored.Some? ==>
      download.DownloadResponse? && o.stored.value == StoredObject(marked.id, StoredKey(tid, hex), download.audio)
  {
    match download
    case DownloadRaised => Save(marked, Processed, saveOk, None)
    case DownloadResponse(status, audio) =>
      if status != 200 then Save(marked, ProcessedWithoutAudio, saveOk, None)
      else
        var obj := StoredObject(marked.id, StoredKey(tid, hex), audio);
        match upload
        case PutRaised => Save(marked, Processed, saveOk, None)
        case PresignRaised => Save(marked, Processed, saveOk, Some(obj))
        case Presigned(url) =>
          var withUrl := marked.(ttsFileUrl := Some(url));
          assert !updated ==> BackfillMessages(withUrl.messages, tid, url) == withUrl.messages;
          var record := if !updated then withUrl.(messages := BackfillMessages(withUrl.messages, tid, url)) else withUrl;
          Save(record, Processed, saveOk, Some(obj))
  }

  /** `tts_callback`. `convs` are all stored conversations in query order. */
  function Callback(convs: seq<Conversation>, req: CallbackRequest, download: Download,
                    hex: string, upload: Upload, saveOk: bool): (o: CallbackOutcome)
    ensures !Truthy(req.taskId) ==> o == CallbackOutcome(Err(MissingTaskId), None, None)
    ensures ResolveTask(convs, req.taskId).Err? ==> o.saved.None? && o.stored.None?
    ensures ResolveTask(convs, req.taskId).Ok? ==> (o.saved.Some? <==> saveOk)
    ensures o.reply.Ok? ==> o.saved.Some? && o.saved.value.ttsStatus == req.status
    ensures o.stored.Some? ==> req.status == Some(COMPLETED)
  {
    match ResolveTask(convs, req.taskId)
    case Err(e) => CallbackOutcome(Err(e), None, None)
    case Ok(i) =>
      var tid := req.taskId.value;
      var (marked, updated) := PropagateStatus(convs[i], tid, req.status, req.outputUrl);
      if req.status == Some(COMPLETED) then CompleteAudio(marked, updated, tid, download, hex, upload, saveOk)
      else Save(marked, Processed, saveOk, None)
  }

  /** The saved record is the resolved conversation with the callback status,
      the first-pass message updates and nothing else, except that a completed
      task whose audio was stored and presigned also sets the conversation-level
      URL; messages never receive the presigned URL. */
  lemma CallbackSavedRecord(convs: seq<Conversation>, req: CallbackRequest, download: Download,
                            hex: string, upload: Upload, saveOk: bool)
    requires Callback(convs, req, download, hex, upload, saveOk).saved.Some?
    ensures ResolveTask(convs, req.taskId).Ok?
    ensures var c := convs[ResolveTask(convs, req.taskId).value];
      var marked := PropagateStatus(c, req.taskId.value, req.status, req.outputUrl).0;
      var saved := Callback(convs, req, download, hex, upload, saveOk).saved.value;
      && saved == marked.(ttsFileUrl := saved.ttsFileUrl)
      && (saved.ttsFileUrl != c.ttsFileUrl ==>
            req.status == Some(COMPLETED) && download.DownloadResponse? && download.status == 200
            && upload.Presigned? && saved.ttsFileUrl == Some(upload.url))
      && ((req.status == Some(COMPLETED) && download.DownloadResponse? && download.status == 200
            && upload.Presigned?) ==> saved.ttsFileUrl == Some(upload.url))
  {
    var i := ResolveTask(convs, req.taskId).value;
    var c := convs[i];
    var tid := req.taskId.value;
    var (marked, updated) := PropagateStatus(c, tid, req.status, req.outputUrl);
    if !updated && upload.Presigned? {
      BackfillNeverApplies(c, tid, req.status, req.outputUrl, upload.url);
    }
  }

  /** A completed callback whose download is refused still records the status
      `completed`, keeps whatever conversation-level URL was there before, and
      stores nothing. */
  lemma DownloadFailureStillCompletes(convs: seq<Conversation>, req: CallbackRequest, status: int, audio: Bytes,
                                      hex: string, upload: Upload)
    requires Truthy(req.taskId) && req.status == Some(COMPLETED) && status != 200
    requires ResolveTask(convs, req.taskId).Ok?
    ensures var o := Callback(convs, req, DownloadResponse(status, audio), hex, upload, true);
      && o.reply == Ok(ProcessedWithoutAudio) && o.stored.None?
      && o.saved.value.ttsStatus == Some(COMPLETED)
      && o.saved.value.ttsFileUrl == convs[ResolveTask(convs, req.taskId).value].ttsFileUrl
  {
  }

  /** A task id stored only on a message is still found, and that message
      takes the callback's status. */
  lemma MessageLevelTaskIsFound(convs: seq<Conversation>, req: CallbackRequest, download: Download,
                                hex: string, upload: Upload, k: nat, j: nat)
    requires Truthy(req.taskId)
    requires forall i :: 0 <= i < |convs| ==> convs[i].ttsTaskId != req.taskId
    requires k < |convs| && j < |convs[k].messages| && CarriesTask(convs[k].messages[j], req.taskId.value)
    requires forall i :: 0 <= i < k ==> !HasTaskMessage(convs[i], req.taskId.value)
    ensures ResolveTask(convs, req.taskId) == Ok(k)
    ensures var o := Callback(convs, req, download, hex, upload, true);
      && o.saved.Some? && o.saved.value.id == convs[k].id
      && j < |o.saved.value.messages| && o.saved.value.messages[j].ttsStatus == req.status
  {
    var tid := req.taskId.value;
    assert HasTaskMessage(convs[k], tid);
    var i := ResolveTask(convs, req.taskId).value;
    assert IsFirstMessageOwner(convs, tid, i);
    assert i == k;
    var marked := PropagateStatus(convs[k], tid, req.status, req.outputUrl).0;
    var o := Callback(convs, req, download, hex, upload, true);
    assert o.saved.Some?;
    CallbackSavedRecord(convs, req, download, hex, upload, true);
    assert o.saved.value.messages == marked.messages;
    assert marked.messages[j] == MarkMessage(convs[k].messages[j], req.status, req.outputUrl);
  }

  /** Submitting a task and then receiving its completed callback, with the
      audio downloaded, stored and presigned: the status is `completed`, the
      conversation-level URL is the presigned one, and the audio sits in the
      conversation's bucket under the generated key. */
  lemma SubmitThenComplete(before: seq<Conversation>, k: nat, reply: SubmitReply, audio: Bytes,
                           hex: string, url: string)
    requires k < |before|
    requires GenerateTts(before[k], reply).Ok?
    requires var tid := GenerateTts(before[k], reply).value.0;
             forall i :: 0 <= i < k ==> before[i].ttsTaskId != Some(tid)
    ensures var (tid, submitted) := GenerateTts(before[k], reply).value;
      var o := Callback(before[k := submitted], CallbackRequest(Some(tid), Some(COMPLETED), None),
                        DownloadResponse(200, audio), hex, Presigned(url), true);
      && o.reply == Ok(Processed)
      && o.saved.Some? && o.saved.value.id == before[k].id
      && o.saved.value.ttsStatus == Some(COMPLETED)
      && o.saved.value.ttsFileUrl == Some(url)
      && o.stored == Some(StoredObject(before[k].id, StoredKey(tid, hex), audio))
  {
    var (tid, submitted) := GenerateTts(before[k], reply).value;
    var convs := before[k := submitted];
    assert IsFirstOwner(convs, tid, k);
    var req := CallbackRequest(Some(tid), Some(COMPLETED), None);
    CallbackSavedRecord(convs, req, DownloadResponse(200, audio), hex, Presigned(url), true);
  }
}

=== FILE: wrappers.dfy ===
/** Failure-compatible wrappers shared by every module of the model. */
module Wrappers {

  /** A value that may be absent: a missing dictionary key, a JSON null or
      Python's None. */
  datatype Option<+T> = None | Some(value: T) {

    /** The wrapped value, or `default` when absent (Python's `d.get(k, default)`). */
    function GetOr(default: T): T {
      match this
      case Some(v) => v
      case None => default
    }
  }

  /** A decoded JSON value where the handler tells a missing key (`Absent`)
      apart from an explicit `null` (`Null`). */
  datatype Slot<+T> = Absent | Null | Present(value: T)

  /** Either a value or the error the handler reports instead. */
  datatype Result<+T, +E> = Ok(value: T) | Err(error: E) {

    predicate IsFailure() {
      Err?
    }

    function PropagateFailure<U>(): Result<U, E>
      requires Err?
    {
      Err(error)
    }

    function Extract(): T
      requires Ok?
    {
      value
    }
  }

  /** Python truthiness of an optional string: present and non-empty. */
  predicate Truthy(s: Option<string>) {
    s.Some? && s.value != ""
  }
}
